=== FILE: README.md ===
# Engrain AI form submissions, modelled in Dafny

The Engrain AI website takes three kinds of submission from its visitors:
contact messages, consultation requests and demo-call requests. This project
models the server side of those submissions and proves properties about it.

- **Serverless contact handler** (`api/contact.js`). It checks the method, then
  runs a per-address fixed-window rate limiter: five requests per fifteen
  minutes. It then validates the fields, including an e-mail regular
  expression, and applies the reCAPTCHA v3 gate. Finally it normalises the
  record and forwards it to an automation webhook.
- **Express routes** (`server/routes.ts`). They validate a consultation or
  demo-call request, write it to the in-memory store (`server/storage.ts`),
  start a webhook with the validated data, and answer 201. The GET routes
  list what is stored.
- **Notification mailer** (`server/email.ts`, and its copy in
  `api/index.ts`). It creates the SMTP transporter lazily and caches it, and
  it builds the e-mail from a submission.
- **Standalone app** (`api/index.ts`). It holds the contact schema, the
  `/api/contact` route, the request-log line with its truncation, and the
  fallback error handler.
- **Record shapes** (`shared/schema.ts`).

Everything is a pure function over immutable values. Side effects become
parameters:

- **Clock, ids and timestamps:** the time, the generated id and the ISO
  timestamp are inputs.
- **Network answers:** the siteverify answer, the webhook's answer and the SMTP
  server's verdict are inputs.
- **State:** the limiter map, the store and the transporter cache go in and
  come back out.
- **Outbound calls:** the handlers record each call they start as data, so the
  proofs can talk about which calls happen and in what order.

| file | module | models |
|---|---|---|
| `wrappers.dfy` | `Wrappers` | `Option` and `Result` |
| `js_string.dfy` | `JsString` | The JavaScript string built-ins the core relies on: `trim`, `toLowerCase`, clamping `substring`, global `replace`, decimal rendering, truthiness |
| `schema.dfy` | `Schema` | Insert and stored records; the generated insert schemas' presence checks |
| `storage.dfy` | `Storage` | `MemStorage`: two insertion-ordered, append-only collections |
| `rate_limit.dfy` | `RateLimit` | The contact handler's limiter |
| `contact_validation.dfy` | `ContactValidation` | Required fields, the e-mail regex, the reCAPTCHA verdict, the webhook record |
| `contact_handler.dfy` | `ContactHandler` | The whole serverless handler as one transition |
| `routes.dfy` | `Routes` | `sendToWebhook`, the URL mask, the four routes |
| `mailer.dfy` | `Mailer` | `getTransporter`, the mail fields and bodies, `sendContactEmail` |
| `api_index.dfy` | `ApiIndex` | `contactFormSchema`, `/api/contact`, the log line, the error handler |

Some facts about the code that shape the model:

- **Contact fields:** the serverless handler requires `firstName`, `lastName`,
  `email` and `automationGoal`. The `name`/`message` field set belongs to
  `api/index.ts`.
- **No length or format checks:** the consultation and demo-call insert
  schemas check presence and string type only. They have no minimum length and
  no e-mail format.
- **No trimming:** the server-side schemas do not trim. Only the serverless
  handler's normaliser trims.
- **Demo-call naming:** `server/storage.ts` names its second collection
  `DemoBooking`, a type the schema module does not export. The routes call
  `createDemoCallRequest` and `getDemoCallRequests`. The model uses the
  demo-call naming of the built bundle (`dist/index.js`), whose store matches
  the routes.

## Model

| member | source | states |
|---|---|---|
| JsString.Trim | api/contact.js:127-132 | The result has no leading or trailing whitespace. It is empty exactly when the input is all whitespace. An already-trimmed string is unchanged. |
| JsString.TrimCharacterised | api/contact.js:127-132 | Trimming whitespace + t + whitespace gives back t whenever t has no whitespace at its ends. |
| JsString.TrimIdempotent | api/contact.js:127-132 | Trimming twice is the same as trimming once. |
| JsString.Lower | api/contact.js:129 | Lowercasing keeps the length. It leaves no ASCII capital, shifts each capital by 32 and keeps every other character. |
| JsString.LowerTrimCommute | api/contact.js:129 | Trimming then lowercasing equals lowercasing then trimming. |
| JsString.Substring | server/routes.ts:23 | `substring` gives the slice for in-range arguments. Otherwise it clamps both ends to `[0, n]` and returns the slice from the smaller clamped end to the larger. |
| JsString.SubstringSymmetric | server/routes.ts:23 | `substring(a, b)` equals `substring(b, a)`. |
| JsString.SubstringFrom | server/routes.ts:23 | `substring(start)` is the suffix that begins at the clamped start. |
| JsString.ReplaceAll | server/email.ts:50 | A global replace leaves a string without the character unchanged. When the replacement lacks the character, no occurrence survives. |
| JsString.ReplaceAllAtFirst | server/email.ts:50 | The first occurrence is replaced in place: the text before it is kept, the replacement stands where the character stood, and the rest is replaced in turn. |
| JsString.SplitOn | server/email.ts:50 | Splitting on a character gives one more piece than there are occurrences. No piece contains the character, and joining the pieces with it gives the string back. |
| JsString.ReplaceAllJoin | server/email.ts:50 | Replacing every occurrence in pieces joined by the character gives the same pieces joined by the replacement. |
| JsString.ReplaceAllLength | server/email.ts:50 | Every occurrence is replaced: the length grows by the replacement's length minus one per occurrence. |
| JsString.NatToString | api/index.ts:104 | Status and duration render as one or more digits, with no leading zero. |
| JsString.DecimalRoundTrip | api/index.ts:104 | Reading the rendered digits back gives the number. |
| JsString.NatToStringInjective | api/index.ts:104 | Different numbers render differently. |
| Schema.StampConsultation | shared/schema.ts:7-25 | A stored consultation request is its insert fields plus the given id and creation time; removing those two gives back the insert record. |
| Schema.StampDemoCall | shared/schema.ts:28-43 | A stored demo-call request is its insert fields plus the given id and creation time. |
| Schema.StampRoundTrip | shared/schema.ts:19-22 | Every stored record is the stamp of its own insert fields. |
| Schema.ParseStrings | shared/schema.ts:9-15 | A body passes exactly when every listed field holds a string, with the values in field order. Otherwise it fails, naming exactly the missing fields. |
| Schema.ParseConsultation | shared/schema.ts:9-22 | The seven `notNull` text columns are all required. Nothing else about their values is checked. |
| Schema.ParseDemoCall | shared/schema.ts:29-40 | The four demo-call text columns are all required. |
| Schema.ConsultationRoundTrip | shared/schema.ts:19-24 | Parsing the body of an insert record gives that record back. |
| Schema.DemoCallRoundTrip | shared/schema.ts:37-42 | Same for demo-call requests. |
| Schema.ParseIgnoresIdentity | shared/schema.ts:19-22 | A client-supplied `id` or `createdAt` never reaches the parsed record, because both are omitted from the insert shape. |
| Storage.Get | server/storage.ts:17-23 | Lookup finds a record exactly when its id was inserted. |
| Storage.Insert | server/storage.ts:32 | Adding a fresh id maps it to the record and leaves every other id as it was. The size grows by one, the value list gains the record at its end, and ids stay distinct. |
| Storage.AsMapMatchesGet | server/storage.ts:17-23 | The collection seen as a finite map has one key per record and agrees with lookup. |
| Storage.InsertAsMap | server/storage.ts:32 | As a map, inserting a fresh id is the map update `m[id := v]` and adds one key. |
| Storage.EmptyValid | server/storage.ts:20-23 | A new store is empty and satisfies the store invariant. |
| Storage.CreateConsultationRequest | server/storage.ts:25-34 | Returns the insert fields with the given id and time and stores them under that id. The list afterwards is the old list plus the record. Other ids and the demo-call collection are untouched, and the invariant is kept. |
| Storage.CreateDemoCallRequest | dist/index.js:29-38 | Same for demo-call requests, leaving consultation requests untouched. |
| Storage.HistoryOnlyGrows | server/storage.ts:9-14 | Over any sequence of creates and lists, each list extends the one before it and the invariant holds throughout. |
| Storage.CollectionsIndependent | server/storage.ts:17-23 | A history with no demo-call creates leaves the demo-call list unchanged, and a history with no consultation creates leaves the consultation list unchanged. |
| RateLimit.Check | api/contact.js:32-46 | An unseen client gets `{count: 1, startTime: now}` and passes. A window more than fifteen minutes old (strictly) resets to `{1, now}`. In a live window, five requests are refused with the map unchanged; fewer than five pass with the count plus one and the same start. Other clients are untouched. |
| RateLimit.CheckPreservesValid | api/contact.js:32-46 | Every entry keeps `1 <= count <= 5`. |
| RateLimit.ReplayPreservesValid | api/contact.js:32-46 | The invariant survives any stream of requests. |
| RateLimit.WindowCap | api/contact.js:2-4 | Inside one window, however other clients interleave, a client that has used `count` requests gets at most `5 - count` more through. |
| RateLimit.NewClientCap | api/contact.js:2-4 | A new client gets at most five requests through while its requests stay within fifteen minutes of its first. |
| ContactValidation.IndexOf | api/contact.js:65 | Finds the first occurrence of a character, or reports none. |
| ContactValidation.EmailRegexTestCorrect | api/contact.js:65-66 | The executable test (no whitespace, exactly one `@` with something before it, a `.` inside the domain) accepts exactly the strings in the language of `^[^\s@]+@[^\s@]+\.[^\s@]+$`. |
| ContactValidation.LowerKeepsEmailMatch | api/contact.js:129 | Lowercasing an address never changes whether it matches. |
| ContactValidation.Validate | api/contact.js:58-69 | Accepted exactly when the four required fields are truthy and the address matches the regex. The error is "Missing required fields" or "Invalid email format", checked in that order. |
| ContactValidation.CaptchaDecision | api/contact.js:74-123 | No secret: skipped. With a secret, each of these is refused with its own message: no token, `success` false, the wrong action, a score below 0.5. An unreachable siteverify is a crash. It passes exactly when everything holds, and a missing score is not low. |
| ContactValidation.CaptchaIgnoresAnswerWithoutCall | api/contact.js:75-79 | Without a secret or a token, the siteverify answer cannot matter. |
| ContactValidation.OptionalField | api/contact.js:130-131 | An optional field becomes `null` exactly when it is absent or blank. Otherwise it is the trimmed input, which is non-empty and has no whitespace at its ends. |
| ContactValidation.Normalise | api/contact.js:126-137 | The names and the automation goal are the trimmed inputs; a name is empty exactly when it was all whitespace. The address is lowercased and trimmed. Phone and company are trimmed, or `null` when absent or blank. The source, address, time and score are carried over. |
| ContactValidation.NormalisedEmailOfValid | api/contact.js:126-137 | For an accepted address, the forwarded address is simply its lowercase form, and it still matches the regex. |
| ContactValidation.BlankNamePassesThenEmpties | api/contact.js:126-137 | A first name of spaces passes the presence check but is forwarded as "". |
| ContactValidation.NormaliseIdempotent | api/contact.js:126-137 | Normalising an already normalised record changes nothing. |
| ContactHandler.ClientAddress | api/contact.js:29 | The limiter key is the forwarded-for header when non-empty, else the socket address. |
| ContactHandler.Deliver | api/contact.js:139-166 | On the success path the reply is 200 with the success message. The webhook is called exactly when its URL is configured, with the normalised record, once, after the calls already made. |
| ContactHandler.Proceed | api/contact.js:58-166 | After the limiter: validation errors give 400 with their message and no calls; a valid submission goes to the reCAPTCHA gate. The reply is 200 exactly when validation and the gate pass. Siteverify is called exactly for a valid submission with a configured secret and a token. A webhook call happens exactly on 200 with a configured URL. |
| ContactHandler.VerifyCalls | api/contact.js:75-88 | Exactly one siteverify request, carrying the token and the client address, when a secret is configured and a token was sent; otherwise none. No webhook request. |
| ContactHandler.Screen | api/contact.js:74-123 | A reCAPTCHA refusal is answered 400 with its own message, an unreachable siteverify 500 with the generic error, and a skipped or passed gate 200. Siteverify is called first, with the token and the client address, exactly when a secret is configured and a token was sent. Each of siteverify and the webhook is called at most once. |
| ContactHandler.Handle | api/contact.js:9-174 | CORS headers on every reply. OPTIONS gives 200 and other non-POST methods 405, both before the limiter and without touching it. Every POST passes through the limiter, which refuses with 429 `{error: "Too many requests. Please try again later."}` and no calls. The reply is 200 exactly when the limiter, validation and reCAPTCHA all pass. |
| ContactHandler.WebhookAnswerIgnored | api/contact.js:140-166 | The webhook's answer (ok, not ok, or thrown) never changes the reply or the limiter. |
| ContactHandler.RefusedPostStillCounts | api/contact.js:29-69 | A POST the limiter lets through uses quota even when validation then refuses it. |
| ContactHandler.SuccessMeansChecked | api/contact.js:59-123 | A 200 implies the required fields were present and the address matched. With a secret, it also implies a token was sent and siteverify answered success, the right action and no low score. |
| Routes.MaskUrl | server/routes.ts:23 | The masked URL is the first `min(20, n)` characters, "...", and the last `min(10, n)`. Its length is `min(20, n) + 3 + min(10, n)`. |
| Routes.ShortUrlFullyShown | server/routes.ts:23 | A URL of at most thirty characters can be read back in full from its mask. |
| Routes.SendToWebhook | server/routes.ts:7-64 | Skipped exactly when the URL or the key is missing or empty. Otherwise it posts `{formType, data, timestamp}` to the URL with a JSON content type and `X-Key` equal to the key. |
| Routes.PostConsultation | server/routes.ts:67-86 | A missing field gives 400 "Validation failed" naming exactly the missing fields, with no write and no webhook. A storage fault gives 500 `{error: "Internal server error"}` with no effects. Otherwise the reply is 201 with the stored record, after exactly one write followed by one webhook start with the validated data. |
| Routes.PostDemoCall | server/routes.ts:97-116 | Same for demo-call requests: 400 naming the missing fields with no effects, 500 `{error: "Internal server error"}` on a storage fault, otherwise 201 after one write and one webhook start. |
| Routes.GetConsultations | server/routes.ts:88-95 | 200 with the store's list as it is, or 500 on a storage fault; nothing changes. |
| Routes.GetDemoCalls | server/routes.ts:118-125 | Same for demo-call requests. |
| Routes.WebhookConfigNeverChangesResponse | server/routes.ts:67-116 | The webhook configuration never changes the reply or the store. |
| Routes.PostThenGet | server/routes.ts:67-95 | After a successful POST, the GET lists the earlier records and then the new one; the other list is unchanged. |
| Routes.NotIdempotent | server/routes.ts:97-125 | Posting the same request twice stores two records with different ids, in order. |
| Mailer.GetTransporter | server/email.ts:6-26 | A cached transporter is returned whatever the environment. Without one, a missing or empty `ZOHO_EMAIL` or `ZOHO_PASSWORD` throws and caches nothing. Otherwise it builds and caches an `smtp.zoho.com:465` secure transporter with those credentials. |
| Mailer.TransporterCached | server/email.ts:6-25 | Once a transporter exists, every later call returns the same one and keeps the cache. |
| Mailer.FailureIsNotCached | server/email.ts:8-13 | A failed call leaves the cache empty, so a later call with credentials succeeds. |
| Mailer.OrNotProvided | server/email.ts:47 | An optional value shows as itself when non-empty, else as "Not provided". |
| Mailer.FieldListed | server/email.ts:44-61 | Every labelled field gets its own line in both bodies. |
| Mailer.HtmlParagraph | server/email.ts:50 | The HTML message paragraph contains no raw line break. It is five characters longer per break, and a message without breaks appears verbatim. |
| Mailer.HtmlBreaksInPlace | server/email.ts:50 | A message made of lines joined by line breaks appears as the same lines joined by `<br />`. |
| Mailer.HtmlParagraphOfLines | server/email.ts:50 | For every message, the paragraph is the message's lines, in order, joined by `<br />`. |
| Mailer.ComposeMail | server/email.ts:38-42 | The sender is `ZOHO_EMAIL`, the recipient is always logan@engrainai.com, replies go to the submitter, and the subject is "New Contact Form Submission from " + name. |
| Mailer.MailShowsEverything | server/email.ts:43-68 | Both bodies show every field's line. The HTML body shows the converted message paragraph, and the text body shows the message verbatim. |
| Mailer.ServerMail | server/email.ts:35-69 | The server mail has the fixed fields. Name, e-mail and the phone (or "Not provided") appear in both bodies, with the message in both forms. |
| Mailer.SendMail | server/email.ts:71 | The mail goes out exactly when a transporter is available and the server accepts it. A missing transporter fails with the credentials error, a refusal with a delivery failure, and the cache is the transporter lookup's. |
| Mailer.SendContactEmail | server/email.ts:35-72 | `sendContactEmail` succeeds exactly when a transporter is cached or the credentials are set and the mail is accepted. What goes out is the server mail to the fixed recipient. |
| ApiIndex.KeyIssues | api/index.ts:6-13 | At most one issue per key. There is none exactly when the key meets the schema, and an absent required key is reported as "Required". |
| ApiIndex.AllIssues | api/index.ts:6-13 | Every reported issue names a key that fails, and every failing key is reported. |
| ApiIndex.ValidateContactForm | api/index.ts:6-13 | The form parses exactly when every key meets its rule: a non-empty name, interest and message; an address `isEmail` accepts; optional phone and plan that are strings when present. The values are copied from the body. A failure lists every failing key and only those. |
| ApiIndex.FormRoundTrip | api/index.ts:6-13 | A form meeting the schema parses back unchanged from its own body. |
| ApiIndex.UnknownKeysStripped | api/index.ts:6-13 | Keys outside the schema never change the result. |
| ApiIndex.ApiMail | api/index.ts:40-78 | The app's mail has the same fixed fields as the server mail. Name, e-mail, the phone (or "Not provided"), "Interested In" and the AI employee plan (or "Not provided") appear in both bodies, with the message in both forms. |
| ApiIndex.PostContact | api/index.ts:119-138 | A schema failure gives 400 "Validation failed" with the issues, no send attempt and the cache untouched. A valid form is mailed. The reply is 200 `{success: true, message: "Message sent successfully"}` exactly when the mail went out, and 500 with the send-failure message otherwise. |
| ApiIndex.SuccessMeansMailed | api/index.ts:122-125 | A 200 implies the mail was delivered, a transporter was available, and the name, message and address passed the schema. |
| ApiIndex.Truncate | api/index.ts:108-110 | A line of at most 80 characters is unchanged. A longer one becomes its first 79 characters plus "…", exactly 80 long. |
| ApiIndex.TruncateIdempotent | api/index.ts:108-110 | Truncating twice is the same as truncating once. |
| ApiIndex.LogLine | api/index.ts:101-112 | A line is logged exactly for paths starting with "/api". It is the truncated `method path status in <d>ms`, with ` :: <json>` only when a body was captured. |
| ApiIndex.JsonOnlyAppends | api/index.ts:104-107 | The captured JSON only ever appends ` :: ` and the JSON to the line. |
| ApiIndex.LoggedLineKeepsHead | api/index.ts:104-110 | The logged line starts with the method and path, and its first 79 characters are always those of the full line. |
| ApiIndex.ErrorHandler | api/index.ts:146-149 | The fallback handler answers 500 with the error's message, or "Internal Server Error" when the message is empty; the message is never empty. |

## Left out

- **Network, mail and console I/O.** Siteverify, the webhooks, SMTP and console logging are left out. Their outcomes are inputs (`SiteVerify`, `WebhookAnswer`, `delivered`, `storageFault`), and the calls themselves are recorded as data.
- **Clocks and ids.** `randomUUID`, `new Date()`, `Date.now()` and `toISOString` are parameters. Nothing is claimed about `createdAt` being monotonic or ids being unique beyond the freshness precondition that `randomUUID` stands for.
- **Fire-and-forget concurrency.** The routes' webhook is modelled as a recorded "started" effect, not as a concurrent task.
- **Request bodies.** A contact body's fields are modelled as strings or absent. A JSON `null` behaves like an absent key, which `None` models: a required field is falsy and refused with "Missing required fields", and `phone?.trim() || null` gives `null`. Other non-string values are not modelled. For the four required fields, a falsy one (`0`, `false`) is refused as missing. A non-string address is coerced by the regex test and normally fails it with 400. A truthy non-string required field reaches `.trim()`, throws and ends in the generic 500. So does any non-null, non-string `phone` or `company`, falsy or not, because `?.` stops only on `null` and `undefined` and those fields are not checked before `.trim()`. The express body parser's handling of malformed JSON is not modelled either.
- **JsString.Lower:** lowercases ASCII letters only. `toLowerCase` also maps non-ASCII capitals.
- **Character lengths.** String lengths count Unicode scalar values, whereas JavaScript counts UTF-16 code units. This matters for `substring`, `slice` and the 80-character log limit only on text outside the Basic Multilingual Plane.
- **Schema.ParseConsultation:** reports the missing or non-string fields by name, not zod's full issue objects with codes and messages. The same holds for `Schema.ParseDemoCall` and `Routes.PostConsultation`/`Routes.PostDemoCall`, whose 400 `details` are those names.
- **ApiIndex.ValidateContactForm:** a non-string value is reported as `NotAString` without zod's "Expected string, received …" wording. zod's e-mail check is the opaque parameter `isEmail`.
- **ApiIndex.LogLine:** `JSON.stringify` of the captured body is an input string. A falsy captured body (`null`, `0`, `""`) counts as none captured.
- **ContactHandler.Handle:** when siteverify answers without a score, the model forwards `null`. The source would send `undefined`, which `JSON.stringify` drops from the webhook body.
- **Storage faults.** `MemStorage` never rejects. The 500 paths of the routes are modelled by the `storageFault` input, which stands for a storage implementation that does.
- **The `/api/health` route** always answers `{status: "ok"}`. It carries no logic worth a contract.
- **Parts of the repository outside the submission core.** The client pages and components are left out: rendering, dialogs, the consent checkbox, the ROI calculator's floating-point arithmetic, and files holding merge-conflict markers or importing schema names that do not exist. So are the Vite/Express wiring and static serving. `dist/index.js` is used only for the demo-call naming of the store.

=== FILE: api_index.dfy ===
/**
 * The standalone Express app of the serverless build: its contact schema,
 * the `/api/contact` route that mails each valid submission, the request
 * log line, and the fallback error handler.
 *
 * zod's e-mail check is an opaque predicate `isEmail`. The duration and the
 * serialised JSON body of the log line are inputs, and so is the SMTP
 * server's verdict on the mail.
 */
module ApiIndex {
  import opened Wrappers
  import opened JsString
  import opened Schema
  import opened Mailer

  /* -------------------------------------------------------------- schema */

  /** Why zod rejected a field. */
  datatype Problem =
    | Required                    // the key is absent
    | NotAString                  // present, but not a string
    | TooSmall(message: string)   // the empty string where `.min(1)` applies
    | InvalidEmail(message: string)

  /** The keys of `contactFormSchema`. */
  datatype Key = Name | Email | Phone | InterestedIn | AiEmployeePlan | Message

  function KeyName(k: Key): string {
    match k
    case Name => "name"
    case Email => "email"
    case Phone => "phone"
    case InterestedIn => "interestedIn"
    case AiEmployeePlan => "aiEmployeePlan"
    case Message => "message"
  }

  /** The keys in the order zod checks them. */
  const FormKeys: seq<Key> := [Name, Email, Phone, InterestedIn, AiEmployeePlan, Message]

  datatype Issue = Issue(path: Key, problem: Problem)

  datatype ContactForm = ContactForm(
    name: string,
    email: string,
    phone: Option<string>,
    interestedIn: string,
    aiEmployeePlan: Option<string>,
    message: string)

  predicate IsOptional(k: Key) {
    k == Phone || k == AiEmployeePlan
  }

  /** The custom message of a required key's refinement; the optional keys have none. */
  function Refinement(k: Key): Problem
    requires !IsOptional(k)
  {
    match k
    case Name => TooSmall("Name is required")
    case Email => InvalidEmail("Invalid email address")
    case InterestedIn => TooSmall("Interested in is required")
    case Message => TooSmall("Message is required")
  }

  /** Whether a string passes the refinement of `k`: an e-mail address, or non-empty. */
  predicate Refined(k: Key, s: string, isEmail: string -> bool) {
    if k == Email then isEmail(s) else |s| >= 1
  }

  /** The body's value under `k`, if there is one. */
  function ValueAt(b: Body, k: Key): Option<JsonValue> {
    if KeyName(k) in b then Some(b[KeyName(k)]) else None
  }

  /** The value under `k` satisfies its part of the schema. */
  predicate FieldOk(b: Body, k: Key, isEmail: string -> bool) {
    match ValueAt(b, k)
    case None => IsOptional(k)
    case Some(v) => v.JString? && (IsOptional(k) || Refined(k, v.s, isEmail))
  }

  /** The string under a key that passed. */
  function Text(b: Body, k: Key): string {
    match ValueAt(b, k)
    case Some(JString(s)) => s
    case _ => ""
  }

  /** An optional key's string, `undefined` when the key is absent. */
  function OptionalText(b: Body, k: Key): Option<string> {
    match ValueAt(b, k)
    case Some(JString(s)) => Some(s)
    case _ => None
  }

  /** The issues zod reports for one key: none, or exactly one. */
  function KeyIssues(b: Body, k: Key, isEmail: string -> bool): (r: seq<Issue>)
    ensures |r| <= 1
    ensures r == [] <==> FieldOk(b, k, isEmail)
    ensures r != [] ==> r[0].path == k
    ensures r != [] && ValueAt(b, k).None? ==> r[0].problem == Required
  {
    match ValueAt(b, k)
    case None => if IsOptional(k) then [] else [Issue(k, Required)]
    case Some(JOther) => [Issue(k, NotAString)]
    case Some(JString(s)) => if IsOptional(k) || Refined(k, s, isEmail) then [] else [Issue(k, Refinement(k))]
  }

  /** Some issue names key `k`. */
  predicate Reported(issues: seq<Issue>, k: Key) {
    exists i :: 0 <= i < |issues| && issues[i].path == k
  }

  function AllIssues(b: Body, keys: seq<Key>, isEmail: string -> bool): (r: seq<Issue>)
    ensures forall i :: 0 <= i < |r| ==> r[i].path in keys && !FieldOk(b, r[i].path, isEmail)
    ensures forall k :: k in keys && !FieldOk(b, k, isEmail) ==> Reported(r, k)
    ensures r == [] <==> forall k :: k in keys ==> FieldOk(b, k, isEmail)
    decreases |keys|
  {
    if |keys| == 0 then []
    else
      var here := KeyIssues(b, keys[0], isEmail);
      var rest := AllIssues(b, keys[1..], isEmail);
      IssuesStep(b, keys, isEmail, here, rest);
      here + rest
  }

  /** The issues of the first key followed by those of the others are the issues of all keys. */
  lemma IssuesStep(b: Body, keys: seq<Key>, isEmail: string -> bool, here: seq<Issue>, rest: seq<Issue>)
    requires |keys| > 0 && here == KeyIssues(b, keys[0], isEmail)
    requires forall i :: 0 <= i < |rest| ==> rest[i].path in keys[1..] && !FieldOk(b, rest[i].path, isEmail)
    requires forall k :: k in keys[1..] && !FieldOk(b, k, isEmail) ==> Reported(rest, k)
    ensures forall i :: 0 <= i < |here + rest| ==> (here + rest)[i].path in keys && !FieldOk(b, (here + rest)[i].path, isEmail)
    ensures forall k :: k in keys && !FieldOk(b, k, isEmail) ==> Reported(here + rest, k)
  {
    var r := here + rest;
    assert forall i :: 0 <= i < |rest| ==> rest[i] == r[|here| + i];
    forall i | 0 <= i < |r|
      ensures r[i].path in keys && !FieldOk(b, r[i].path, isEmail)
    {
      if i >= |here| {
        assert r[i] == rest[i - |here|];
      }
    }
    forall k | k in keys && !FieldOk(b, k, isEmail)
      ensures Reported(r, k)
    {
      if k == keys[0] {
        assert r[0] == here[0];
      } else {
        assert k in keys[1..];
        var j :| 0 <= j < |rest| && rest[j].path == k;
        assert r[|here| + j].path == k;
      }
    }
  }

  lemma KeyListed(k: Key)
    ensures k in FormKeys
  {
    var i := match k
      case Name => 0
      case Email => 1
      case Phone => 2
      case InterestedIn => 3
      case AiEmployeePlan => 4
      case Message => 5;
    assert FormKeys[i] == k;
  }

  lemma EveryKeyChecked()
    ensures forall k: Key :: k in FormKeys
  {
    forall k: Key ensures k in FormKeys {
      KeyListed(k);
    }
  }

  /** `contactFormSchema.parse(body)`: the form, or every failing key's issue in schema order. */
  function ValidateContactForm(b: Body, isEmail: string -> bool): (r: Result<ContactForm, seq<Issue>>)
    ensures r.Success? <==> forall k: Key :: FieldOk(b, k, isEmail)
    ensures r.Success? ==>
              && r.value.name == Text(b, Name) && |r.value.name| >= 1
              && r.value.email == Text(b, Email) && isEmail(r.value.email)
              && r.value.interestedIn == Text(b, InterestedIn) && |r.value.interestedIn| >= 1
              && r.value.message == Text(b, Message) && |r.value.message| >= 1
              && r.value.phone == OptionalText(b, Phone)
              && r.value.aiEmployeePlan == OptionalText(b, AiEmployeePlan)
    ensures r.Failure? ==>
              && |r.error| > 0
              && (forall i :: 0 <= i < |r.error| ==> !FieldOk(b, r.error[i].path, isEmail))
              && (forall k: Key :: !FieldOk(b, k, isEmail) ==> Reported(r.error, k))
  {
    var issues := AllIssues(b, FormKeys, isEmail);
    if issues != [] then
      EveryKeyChecked();
      Failure(issues)
    else
      AllKeysPass(b, isEmail);
      Success(ContactForm(Text(b, Name), Text(b, Email), OptionalText(b, Phone), Text(b, InterestedIn),
                          OptionalText(b, AiEmployeePlan), Text(b, Message)))
  }

  lemma AllKeysPass(b: Body, isEmail: string -> bool)
    requires AllIssues(b, FormKeys, isEmail) == []
    ensures forall k: Key :: FieldOk(b, k, isEmail)
    ensures |Text(b, Name)| >= 1 && isEmail(Text(b, Email))
    ensures |Text(b, InterestedIn)| >= 1 && |Text(b, Message)| >= 1
  {
    forall k: Key ensures FieldOk(b, k, isEmail) {
      KeyListed(k);
    }
  }

  /** The body that carries a form, with the optional fields left out when absent. */
  function FormBody(f: ContactForm): Body {
    var required := map[KeyName(Name) := JString(f.name), KeyName(Email) := JString(f.email),
                        KeyName(InterestedIn) := JString(f.interestedIn), KeyName(Message) := JString(f.message)];
    var withPhone := if f.phone.Some? then required[KeyName(Phone) := JString(f.phone.value)] else required;
    if f.aiEmployeePlan.Some? then withPhone[KeyName(AiEmployeePlan) := JString(f.aiEmployeePlan.value)] else withPhone
  }

  /** A form that meets the schema comes back unchanged from its own body. */
  lemma FormRoundTrip(f: ContactForm, isEmail: string -> bool)
    requires |f.name| >= 1 && isEmail(f.email) && |f.interestedIn| >= 1 && |f.message| >= 1
    ensures ValidateContactForm(FormBody(f), isEmail) == Success(f)
  {
    var b := FormBody(f);
    assert ValueAt(b, Name) == Some(JString(f.name));
    assert ValueAt(b, Email) == Some(JString(f.email));
    assert ValueAt(b, InterestedIn) == Some(JString(f.interestedIn));
    assert ValueAt(b, Message) == Some(JString(f.message));
    assert OptionalText(b, Phone) == f.phone;
    assert OptionalText(b, AiEmployeePlan) == f.aiEmployeePlan;
    forall k: Key ensures FieldOk(b, k, isEmail) {
    }
  }

  /** zod strips unknown keys: adding one changes nothing. */
  lemma UnknownKeysStripped(b: Body, key: string, v: JsonValue, isEmail: string -> bool)
    requires forall k: Key :: key != KeyName(k)
    ensures ValidateContactForm(b[key := v], isEmail) == ValidateContactForm(b, isEmail)
  {
    assert forall k: Key :: ValueAt(b[key := v], k) == ValueAt(b, k);
    AllIssuesLocal(b, b[key := v], FormKeys, isEmail);
  }

  lemma {:induction false} AllIssuesLocal(b1: Body, b2: Body, keys: seq<Key>, isEmail: string -> bool)
    requires forall k: Key :: ValueAt(b1, k) == ValueAt(b2, k)
    ensures AllIssues(b1, keys, isEmail) == AllIssues(b2, keys, isEmail)
    decreases |keys|
  {
    if |keys| > 0 {
      assert KeyIssues(b1, keys[0], isEmail) == KeyIssues(b2, keys[0], isEmail);
      AllIssuesLocal(b1, b2, keys[1..], isEmail);
    }
  }

  /* ---------------------------------------------------------------- mail */

  /** The mail of `api/index.ts`: the server mail plus the interest and the plan. */
  function ApiMail(from: Option<string>, f: ContactForm): (m: MailOptions)
    ensures m.from == from && m.to == Recipient && m.replyTo == f.email
    ensures m.subject == SubjectPrefix + f.name
    ensures Infix(HtmlField(Field("Name", f.name)), m.html) && Infix(TextField(Field("Name", f.name)), m.text)
    ensures Infix(HtmlField(Field("Email", f.email)), m.html) && Infix(TextField(Field("Email", f.email)), m.text)
    ensures Infix(HtmlField(Field("Phone", OrNotProvided(f.phone))), m.html)
    ensures Infix(TextField(Field("Phone", OrNotProvided(f.phone))), m.text)
    ensures Infix(HtmlField(Field("Interested In", f.interestedIn)), m.html)
    ensures Infix(TextField(Field("Interested In", f.interestedIn)), m.text)
    ensures Infix(HtmlField(Field("AI Employee Plan", OrNotProvided(f.aiEmployeePlan))), m.html)
    ensures Infix(TextField(Field("AI Employee Plan", OrNotProvided(f.aiEmployeePlan))), m.text)
    ensures Infix(HtmlParagraph(f.message), m.html)
    ensures Infix(TextMessage(f.message), m.text)
  {
    var extra := [Field("Phone", OrNotProvided(f.phone)), Field("Interested In", f.interestedIn),
                  Field("AI Employee Plan", OrNotProvided(f.aiEmployeePlan))];
    MailShowsEverything(from, f.name, f.email, extra, f.message);
    var fs := MailFields(f.name, f.email, extra);
    assert fs[0] in fs && fs[1] in fs && fs[2] in fs && fs[3] in fs && fs[4] in fs;
    ComposeMail(from, f.name, f.email, extra, f.message)
  }

  /* --------------------------------------------------------------- route */

  const SentMessage: string := "Message sent successfully"
  const SendFailedMessage: string := "Failed to send message. Please try again."

  datatype ApiBody =
    | SentBody(success: bool, message: string)
    | ValidationBody(error: string, details: seq<Issue>)
    | ErrorBody(error: string)

  datatype ApiReply = ApiReply(status: nat, body: ApiBody)

  /** The reply, the mail that went out (if any), and the transporter cache afterwards. */
  datatype ContactOutcome = ContactOutcome(reply: ApiReply, sent: Option<Delivery>, cache: Option<Transporter>)

  /** `POST /api/contact`: validate, then send, then answer. */
  function PostContact(b: Body, isEmail: string -> bool, cache: Option<Transporter>, env: MailEnv, delivered: bool)
    : (r: ContactOutcome)
    ensures r.reply.status in {200, 400, 500}
    ensures r.reply.status == 400 <==> ValidateContactForm(b, isEmail).Failure?
    ensures r.reply.status == 400 ==>
              && r.reply.body == ValidationBody("Validation failed", ValidateContactForm(b, isEmail).error)
              && r.sent == None && r.cache == cache
    ensures r.reply.status == 200 <==> r.sent.Some?
    ensures r.reply.status == 200 ==> r.reply.body == SentBody(true, SentMessage)
    ensures r.reply.status == 500 ==> r.reply.body == ErrorBody(SendFailedMessage)
    ensures r.sent.Some? ==>
              && ValidateContactForm(b, isEmail).Success?
              && r.sent.value.mail == ApiMail(env.zohoEmail, ValidateContactForm(b, isEmail).value)
              && delivered
    ensures ValidateContactForm(b, isEmail).Success? ==>
              && r.cache == GetTransporter(cache, env).cache
              && (r.reply.status == 200 <==> GetTransporter(cache, env).result.Success? && delivered)
  {
    match ValidateContactForm(b, isEmail)
    case Failure(issues) => ContactOutcome(ApiReply(400, ValidationBody("Validation failed", issues)), None, cache)
    case Success(f) =>
      var out := SendMail(cache, env, ApiMail(env.zohoEmail, f), delivered);
      match out.result
      case Success(d) => ContactOutcome(ApiReply(200, SentBody(true, SentMessage)), Some(d), out.cache)
      case Failure(_) => ContactOutcome(ApiReply(500, ErrorBody(SendFailedMessage)), None, out.cache)
  }

  /** A 200 is only ever sent for a valid form whose mail reached the server. */
  lemma SuccessMeansMailed(b: Body, isEmail: string -> bool, cache: Option<Transporter>, env: MailEnv, delivered: bool)
    ensures PostContact(b, isEmail, cache, env, delivered).reply.status == 200 ==>
              && delivered
              && (cache.Some? || (Truthy(env.zohoEmail) && Truthy(env.zohoPassword)))
              && isEmail(Text(b, Email)) && |Text(b, Name)| >= 1 && |Text(b, Message)| >= 1
  {
  }

  /* ------------------------------------------------------------- logging */

  const MaxLogLine: nat := 80
  const Ellipsis: char := '\U{2026}'

  /** `line.length > 80 ? line.slice(0, 79) + "…" : line`. */
  function Truncate(line: string): (r: string)
    ensures |r| <= MaxLogLine
    ensures |line| <= MaxLogLine ==> r == line
    ensures |line| > MaxLogLine ==> |r| == MaxLogLine && r[..79] == line[..79] && r[79] == Ellipsis
  {
    if |line| > MaxLogLine then line[..79] + [Ellipsis] else line
  }

  lemma TruncateIdempotent(line: string)
    ensures Truncate(Truncate(line)) == Truncate(line)
  {
  }

  /** What the logger saw: everything but the path test is an input. */
  datatype Finished = Finished(
    httpMethod: string,
    path: string,
    status: nat,
    durationMs: nat,
    json: Option<string>)   // `JSON.stringify` of the captured body, when one was captured

  /** The line before truncation. */
  function FullLine(e: Finished): string {
    e.httpMethod + " " + e.path + " " + NatToString(e.status) + " in " + NatToString(e.durationMs) + "ms"
      + (if e.json.Some? then " :: " + e.json.value else "")
  }

  /** The line logged when a response finishes, if any. */
  function LogLine(e: Finished): (r: Option<string>)
    ensures r.Some? <==> StartsWith(e.path, "/api")
    ensures r.Some? ==> |r.value| <= MaxLogLine && r.value == Truncate(FullLine(e))
  {
    if StartsWith(e.path, "/api") then Some(Truncate(FullLine(e))) else None
  }

  /** The JSON part is only ever appended: the line without it is a prefix of the line with it. */
  lemma JsonOnlyAppends(e: Finished, json: string)
    ensures StartsWith(FullLine(e.(json := Some(json))), FullLine(e.(json := None)))
    ensures |FullLine(e.(json := Some(json)))| == |FullLine(e.(json := None))| + 4 + |json|
  {
  }

  /** A logged line starts as the full line does: the first 79 characters always survive. */
  lemma LoggedLineKeepsHead(e: Finished)
    requires StartsWith(e.path, "/api")
    ensures var full := FullLine(e);
            var k := if |full| < 79 then |full| else 79;
            LogLine(e).value[..k] == full[..k]
    ensures StartsWith(FullLine(e), e.httpMethod + " " + e.path)
  {
    var full := FullLine(e);
    assert full == (e.httpMethod + " " + e.path) + (" " + NatToString(e.status) + " in " + NatToString(e.durationMs) + "ms"
      + (if e.json.Some? then " :: " + e.json.value else ""));
  }

  /* ------------------------------------------------------- error handler */

  const DefaultErrorMessage: string := "Internal Server Error"

  /** The last-resort handler: 500 with the error's message, or a default when it is empty. */
  function ErrorHandler(message: string): (r: (nat, string))
    ensures r.0 == 500
    ensures r.1 != ""
    ensures message != "" ==> r.1 == message
    ensures message == "" ==> r.1 == DefaultErrorMessage
  {
    (500, if message != "" then message else DefaultErrorMessage)
  }
}

=== FILE: contact_handler.dfy ===
/**
 * The serverless contact handler as one state transition: the limiter map
 * before and after, the HTTP reply, and the outbound calls made on the way.
 * The clock, the ISO timestamp, the siteverify answer and the webhook's
 * answer are inputs instead of effects.
 */
module ContactHandler {
  import opened Wrappers
  import opened JsString
  import opened RateLimit
  import opened ContactValidation

  datatype ContactRequest = ContactRequest(
    httpMethod: string,
    forwardedFor: Option<string>,   // the `x-forwarded-for` header
    remoteAddress: string,          // the socket's peer address
    body: ContactFields)

  /** The environment variables the handler reads. */
  datatype ContactEnv = ContactEnv(
    recaptchaSecretKey: Option<string>,
    n8nWebhookUrl: Option<string>)

  datatype ResponseBody = NoBody | ErrorBody(error: string) | SuccessBody(success: bool, message: string)

  datatype Reply = Reply(status: nat, headers: seq<(string, string)>, body: ResponseBody)

  /** How the webhook POST ended: an ok status, another status, or a thrown error. */
  datatype WebhookAnswer = WebhookOk | WebhookNotOk | WebhookThrew

  /** An outbound HTTP call the handler made. */
  datatype Call =
    | SiteVerifyCall(token: string, remoteIp: string)
    | WebhookCall(url: string, data: WebhookData, answer: WebhookAnswer)

  datatype Outcome = Outcome(reply: Reply, limits: Limits, calls: seq<Call>)

  /** Set on every response, before anything else happens. */
  const CorsHeaders: seq<(string, string)> :=
    [("Access-Control-Allow-Origin", "*"),
     ("Access-Control-Allow-Methods", "POST, OPTIONS"),
     ("Access-Control-Allow-Headers", "Content-Type")]

  const SuccessMessage: string := "Form submitted successfully. We'll be in touch soon!"

  const GenericError: string := "An error occurred processing your request. Please try again."

  /** The limiter key: the forwarded-for header when it is non-empty, else the peer address. */
  function ClientAddress(r: ContactRequest): (ip: string)
    ensures Truthy(r.forwardedFor) ==> ip == r.forwardedFor.value
    ensures !Truthy(r.forwardedFor) ==> ip == r.remoteAddress
  {
    if Truthy(r.forwardedFor) then r.forwardedFor.value else r.remoteAddress
  }

  function Respond(status: nat, body: ResponseBody): Reply {
    Reply(status, CorsHeaders, body)
  }

  /** Whether a request that got past the limiter is answered with success. */
  predicate Succeeds(req: ContactRequest, env: ContactEnv, answer: SiteVerify) {
    && Validate(req.body).Accepted?
    && var c := CaptchaDecision(Truthy(env.recaptchaSecretKey), req.body.recaptchaToken, answer);
       (c.CaptchaSkipped? || c.CaptchaPassed?)
  }

  predicate CallsWebhook(calls: seq<Call>) {
    exists c :: c in calls && c.WebhookCall?
  }

  /** The reCAPTCHA score the forwarded record carries: `null` unless the check ran. */
  function ForwardedScore(env: ContactEnv, answer: SiteVerify): Option<real> {
    if Truthy(env.recaptchaSecretKey) && answer.VerifyAnswer? then answer.score else None
  }

  datatype Answered = Answered(reply: Reply, calls: seq<Call>)

  predicate CallsSiteVerify(calls: seq<Call>) {
    exists c :: c in calls && c.SiteVerifyCall?
  }

  /** Everything after the limiter let the request through: validation,
      reCAPTCHA, normalisation and the webhook. */
  function Proceed(req: ContactRequest, env: ContactEnv, ip: string, submittedAt: string,
                   answer: SiteVerify, hook: WebhookAnswer): (r: Answered)
    ensures r.reply.headers == CorsHeaders
    ensures r.reply.status in {200, 400, 500}
    ensures Validate(req.body).Refused? ==> r.reply == Respond(400, ErrorBody(Validate(req.body).error)) && r.calls == []
    ensures Validate(req.body).Accepted? ==> r == Screen(req.body, env, ip, submittedAt, answer, hook)
    ensures r.reply.status == 200 <==> Succeeds(req, env, answer)
    ensures r.reply.status == 200 ==> r.reply.body == SuccessBody(true, SuccessMessage)
    // siteverify is called exactly when a secret is configured and a token was sent
    ensures CallsSiteVerify(r.calls) <==>
              Validate(req.body).Accepted? && Truthy(env.recaptchaSecretKey) && Truthy(req.body.recaptchaToken)
    ensures CallsWebhook(r.calls) <==> r.reply.status == 200 && Truthy(env.n8nWebhookUrl)
    ensures r.reply.status == 200 && Truthy(env.n8nWebhookUrl) ==>
              r.calls[|r.calls| - 1] == WebhookCall(env.n8nWebhookUrl.value,
                                                    Normalise(req.body, submittedAt, ip, ForwardedScore(env, answer)), hook)
  {
    match Validate(req.body)
    case Refused(e) => Answered(Respond(400, ErrorBody(e)), [])
    case Accepted => Screen(req.body, env, ip, submittedAt, answer, hook)
  }

  /** A valid submission meets the reCAPTCHA gate: a refusal is answered 400 with
      its message, an unreachable siteverify 500, and a pass goes on to delivery. */
  function Screen(body: ContactFields, env: ContactEnv, ip: string, submittedAt: string,
                  answer: SiteVerify, hook: WebhookAnswer): (r: Answered)
    requires Validate(body).Accepted?
    ensures var c := CaptchaDecision(Truthy(env.recaptchaSecretKey), body.recaptchaToken, answer);
            && (c.CaptchaRefused? ==> r.reply == Respond(400, ErrorBody(c.error)))
            && (c.CaptchaCrashed? ==> r.reply == Respond(500, ErrorBody(GenericError)))
            && (c.CaptchaSkipped? || c.CaptchaPassed? <==> r.reply == Respond(200, SuccessBody(true, SuccessMessage)))
    ensures CallsSiteVerify(r.calls) <==> Truthy(env.recaptchaSecretKey) && Truthy(body.recaptchaToken)
    // at most one siteverify request and at most one webhook request
    ensures |r.calls| == (if Truthy(env.recaptchaSecretKey) && Truthy(body.recaptchaToken) then 1 else 0)
                         + (if r.reply.status == 200 && Truthy(env.n8nWebhookUrl) then 1 else 0)
    ensures Truthy(env.recaptchaSecretKey) && Truthy(body.recaptchaToken) ==>
              r.calls[0] == SiteVerifyCall(body.recaptchaToken.value, ip)
    ensures CallsWebhook(r.calls) <==> r.reply.status == 200 && Truthy(env.n8nWebhookUrl)
    ensures r.reply.status == 200 && Truthy(env.n8nWebhookUrl) ==>
              r.calls[|r.calls| - 1] == WebhookCall(env.n8nWebhookUrl.value,
                                                    Normalise(body, submittedAt, ip, ForwardedScore(env, answer)), hook)
  {
    var configured := Truthy(env.recaptchaSecretKey);
    var token := body.recaptchaToken;
    var verifyCalls := VerifyCalls(configured, token, ip);
    match CaptchaDecision(configured, token, answer)
    case CaptchaRefused(e) => Answered(Respond(400, ErrorBody(e)), verifyCalls)
    case CaptchaCrashed => Answered(Respond(500, ErrorBody(GenericError)), verifyCalls)
    case _ => Deliver(env, Normalise(body, submittedAt, ip, ForwardedScore(env, answer)), hook, verifyCalls)
  }

  /** The siteverify request, made only when a secret is configured and a token was sent. */
  function VerifyCalls(configured: bool, token: Option<string>, ip: string): (r: seq<Call>)
    ensures |r| == if configured && Truthy(token) then 1 else 0
    ensures configured && Truthy(token) ==> r[0] == SiteVerifyCall(token.value, ip)
    ensures CallsSiteVerify(r) <==> configured && Truthy(token)
    ensures !CallsWebhook(r)
  {
    if configured && Truthy(token) then
      var call := SiteVerifyCall(token.value, ip);
      assert call in [call];
      [call]
    else []
  }

  /** The success path: forward to the webhook when one is configured, then answer 200. */
  function Deliver(env: ContactEnv, data: WebhookData, hook: WebhookAnswer, verifyCalls: seq<Call>): (r: Answered)
    requires !CallsWebhook(verifyCalls)
    ensures r.reply == Respond(200, SuccessBody(true, SuccessMessage))
    ensures CallsWebhook(r.calls) <==> Truthy(env.n8nWebhookUrl)
    ensures Truthy(env.n8nWebhookUrl) ==> r.calls[|r.calls| - 1] == WebhookCall(env.n8nWebhookUrl.value, data, hook)
    // the calls already made stay first, and only the webhook call is added
    ensures |verifyCalls| <= |r.calls| && r.calls[..|verifyCalls|] == verifyCalls
    ensures forall i :: |verifyCalls| <= i < |r.calls| ==> r.calls[i].WebhookCall?
    // one webhook request at most, and no other kind of request
    ensures |r.calls| == |verifyCalls| + (if Truthy(env.n8nWebhookUrl) then 1 else 0)
    ensures CallsSiteVerify(r.calls) <==> CallsSiteVerify(verifyCalls)
  {
    if Truthy(env.n8nWebhookUrl) then
      var call := WebhookCall(env.n8nWebhookUrl.value, data, hook);
      assert call in verifyCalls + [call];
      assert forall c :: c in verifyCalls + [call] ==> c in verifyCalls || c == call;
      Answered(Respond(200, SuccessBody(true, SuccessMessage)), verifyCalls + [call])
    else
      Answered(Respond(200, SuccessBody(true, SuccessMessage)), verifyCalls)
  }

  /** The contact endpoint. */
  function Handle(m: Limits, req: ContactRequest, env: ContactEnv, now: nat, submittedAt: string,
                  answer: SiteVerify, hook: WebhookAnswer): (r: Outcome)
    ensures r.reply.headers == CorsHeaders
    ensures r.reply.status in {200, 400, 405, 429, 500}
    // preflight and foreign methods are answered before the limiter runs
    ensures req.httpMethod == "OPTIONS" ==> r.reply == Respond(200, NoBody) && r.limits == m && r.calls == []
    ensures req.httpMethod != "OPTIONS" && req.httpMethod != "POST"
            ==> r.reply == Respond(405, ErrorBody("Method not allowed")) && r.limits == m && r.calls == []
    // every POST goes through the limiter first, whatever happens next
    ensures req.httpMethod == "POST" ==> r.limits == Check(m, ClientAddress(req), now).limits
    ensures req.httpMethod == "POST" && !Check(m, ClientAddress(req), now).allowed
            ==> r.reply == Respond(429, ErrorBody("Too many requests. Please try again later.")) && r.calls == []
    ensures req.httpMethod == "POST" && Check(m, ClientAddress(req), now).allowed
            ==> Answered(r.reply, r.calls) == Proceed(req, env, ClientAddress(req), submittedAt, answer, hook)
    ensures req.httpMethod == "POST" ==>
              (r.reply.status == 200 <==> Check(m, ClientAddress(req), now).allowed && Succeeds(req, env, answer))
    ensures CallsWebhook(r.calls) <==> req.httpMethod == "POST" && r.reply.status == 200 && Truthy(env.n8nWebhookUrl)
  {
    if req.httpMethod == "OPTIONS" then Outcome(Respond(200, NoBody), m, [])
    else if req.httpMethod != "POST" then Outcome(Respond(405, ErrorBody("Method not allowed")), m, [])
    else
      var ip := ClientAddress(req);
      var step := Check(m, ip, now);
      if !step.allowed then
        Outcome(Respond(429, ErrorBody("Too many requests. Please try again later.")), m, [])
      else
        var a := Proceed(req, env, ip, submittedAt, answer, hook);
        Outcome(a.reply, step.limits, a.calls)
  }

  /** The webhook's answer never reaches the reply or the limiter. */
  lemma WebhookAnswerIgnored(m: Limits, req: ContactRequest, env: ContactEnv, now: nat, submittedAt: string,
                             answer: SiteVerify, h1: WebhookAnswer, h2: WebhookAnswer)
    ensures Handle(m, req, env, now, submittedAt, answer, h1).reply == Handle(m, req, env, now, submittedAt, answer, h2).reply
    ensures Handle(m, req, env, now, submittedAt, answer, h1).limits == Handle(m, req, env, now, submittedAt, answer, h2).limits
  {
  }

  /** A POST that passes the limiter uses up quota even when it is then refused. */
  lemma RefusedPostStillCounts(m: Limits, req: ContactRequest, env: ContactEnv, now: nat, submittedAt: string,
                               answer: SiteVerify, hook: WebhookAnswer)
    requires Valid(m)
    requires req.httpMethod == "POST"
    requires Check(m, ClientAddress(req), now).allowed
    ensures var r := Handle(m, req, env, now, submittedAt, answer, hook);
            && r.limits != m
            && ClientAddress(req) in r.limits
            && (ClientAddress(req) in m && !Expired(m[ClientAddress(req)], now)
                ==> r.limits[ClientAddress(req)].count == m[ClientAddress(req)].count + 1)
  {
    var ip := ClientAddress(req);
    var r := Handle(m, req, env, now, submittedAt, answer, hook);
    if ip in m {
      assert r.limits[ip] != m[ip];
    }
  }

  /** Success means the submission was valid and passed reCAPTCHA when it is configured. */
  lemma SuccessMeansChecked(m: Limits, req: ContactRequest, env: ContactEnv, now: nat, submittedAt: string,
                            answer: SiteVerify, hook: WebhookAnswer)
    requires req.httpMethod == "POST"
    ensures Handle(m, req, env, now, submittedAt, answer, hook).reply.status == 200 ==>
              && RequiredPresent(req.body) && MatchesEmailRegex(req.body.email.value)
              && (Truthy(env.recaptchaSecretKey) ==>
                    && Truthy(req.body.recaptchaToken) && answer.VerifyAnswer? && answer.success
                    && answer.action == Some(ExpectedAction) && !LowScore(answer.score))
  {
  }
}

=== FILE: contact_validation.dfy ===
/**
 * The pure checks of the serverless contact handler: required fields, the
 * e-mail regular expression `^[^\s@]+@[^\s@]+\.[^\s@]+$`, the reCAPTCHA v3
 * verdict, and the normalised record forwarded to the automation webhook.
 */
module ContactValidation {
  import opened Wrappers
  import opened JsString

  /** The fields the handler destructures from the request body; an absent
      key is `None`. */
  datatype ContactFields = ContactFields(
    firstName: Option<string>,
    lastName: Option<string>,
    email: Option<string>,
    phone: Option<string>,
    company: Option<string>,
    automationGoal: Option<string>,
    recaptchaToken: Option<string>)

  /* --------------------------------------------------------- e-mail regex */

  /** One character of the class `[^\s@]`. */
  predicate PlainChar(c: char) {
    !IsSpace(c) && c != '@'
  }

  /** A match of `[^\s@]+`. */
  predicate PlainRun(s: string) {
    |s| > 0 && forall i :: 0 <= i < |s| ==> PlainChar(s[i])
  }

  /** The regex matches `s` with its `@` at index `at` and its literal `.` at index `dot`. */
  ghost predicate MatchesAt(s: string, at: int, dot: int) {
    && 0 <= at < dot < |s|
    && s[at] == '@' && s[dot] == '.'
    && PlainRun(s[..at]) && PlainRun(s[at + 1..dot]) && PlainRun(s[dot + 1..])
  }

  /** The language of `^[^\s@]+@[^\s@]+\.[^\s@]+$`, read as a concatenation. */
  ghost predicate MatchesEmailRegex(s: string) {
    exists at, dot :: MatchesAt(s, at, dot)
  }

  /** Index of the first `c` in `s`, or `|s|` when there is none. */
  function IndexOf(s: string, c: char): (i: nat)
    ensures i <= |s|
    ensures i < |s| ==> s[i] == c
    ensures forall k :: 0 <= k < i ==> s[k] != c
  {
    if |s| == 0 then 0
    else if s[0] == c then 0
    else 1 + IndexOf(s[1..], c)
  }

  /** The domain has a `.` with at least one character on each side. */
  predicate HasInnerDot(d: string) {
    exists k :: 1 <= k < |d| - 1 && d[k] == '.'
  }

  /**
   * What `emailRegex.test(email)` decides: no whitespace, exactly one `@`,
   * a non-empty part before it, and a `.` inside the part after it.
   */
  predicate EmailRegexTest(s: string) {
    && NoSpace(s)
    && CountChar(s, '@') == 1
    && var at := IndexOf(s, '@');
       at > 0 && at < |s| && HasInnerDot(s[at + 1..])
  }

  lemma {:induction false} CountCharConcat(a: string, b: string, c: char)
    ensures CountChar(a + b, c) == CountChar(a, c) + CountChar(b, c)
    decreases |a|
  {
    if |a| == 0 {
      assert a + b == b;
    } else {
      assert (a + b)[1..] == a[1..] + b;
      CountCharConcat(a[1..], b, c);
    }
  }

  /** With a single `@`, every other character differs from `@`. */
  lemma {:induction false} OnlyAt(s: string, k: int)
    requires CountChar(s, '@') == 1
    requires 0 <= k < |s| && k != IndexOf(s, '@')
    ensures s[k] != '@'
  {
    var at := IndexOf(s, '@');
    if k > at {
      assert at < |s|;
      assert s == s[..at + 1] + s[at + 1..];
      CountCharConcat(s[..at + 1], s[at + 1..], '@');
      assert s[..at + 1] == s[..at] + [s[at]];
      CountCharConcat(s[..at], [s[at]], '@');
      assert '@' !in s[..at];
      assert CountChar(s[at + 1..], '@') == 0;
      assert s[k] == s[at + 1..][k - at - 1];
    }
  }

  lemma TestImpliesMatch(s: string)
    requires EmailRegexTest(s)
    ensures MatchesEmailRegex(s)
  {
    var at := IndexOf(s, '@');
    var d := s[at + 1..];
    var k :| 1 <= k < |d| - 1 && d[k] == '.';
    var dot := at + 1 + k;
    forall i | 0 <= i < |s| && i != at ensures PlainChar(s[i]) {
      OnlyAt(s, i);
    }
    assert s[dot] == '.';
    assert PlainRun(s[..at]);
    assert PlainRun(s[at + 1..dot]);
    assert PlainRun(s[dot + 1..]);
    assert MatchesAt(s, at, dot);
  }

  lemma MatchImpliesTest(s: string, at: int, dot: int)
    requires MatchesAt(s, at, dot)
    ensures EmailRegexTest(s)
  {
    var a, m, b := s[..at], s[at + 1..dot], s[dot + 1..];
    assert s == a + ['@'] + m + ['.'] + b;
    assert NoSpace(s) by {
      forall i | 0 <= i < |s| ensures !IsSpace(s[i]) {
        if i < at { assert s[i] == a[i]; }
        else if at < i < dot { assert s[i] == m[i - at - 1]; }
        else if i > dot { assert s[i] == b[i - dot - 1]; }
      }
    }
    assert '@' !in a && '@' !in m && '@' !in b by {
      assert forall i :: 0 <= i < |a| ==> PlainChar(a[i]);
      assert forall i :: 0 <= i < |m| ==> PlainChar(m[i]);
      assert forall i :: 0 <= i < |b| ==> PlainChar(b[i]);
    }
    CountCharConcat(a, ['@'], '@');
    CountCharConcat(a + ['@'], m, '@');
    CountCharConcat(a + ['@'] + m, ['.'], '@');
    CountCharConcat(a + ['@'] + m + ['.'], b, '@');
    assert forall k :: 0 <= k < at ==> s[k] == a[k];
    assert IndexOf(s, '@') == at;
    var d := s[at + 1..];
    assert d[dot - at - 1] == '.';
    assert HasInnerDot(d);
  }

  /** The decision procedure accepts exactly the strings the regex matches. */
  lemma EmailRegexTestCorrect(s: string)
    ensures EmailRegexTest(s) <==> MatchesEmailRegex(s)
  {
    if EmailRegexTest(s) {
      TestImpliesMatch(s);
    }
    if MatchesEmailRegex(s) {
      var at, dot :| MatchesAt(s, at, dot);
      MatchImpliesTest(s, at, dot);
    }
  }

  lemma PlainRunLower(x: string)
    ensures PlainRun(Lower(x)) <==> PlainRun(x)
  {
    assert forall i :: 0 <= i < |x| ==> (PlainChar(Lower(x)[i]) <==> PlainChar(x[i]));
  }

  lemma MatchesAtLower(s: string, at: int, dot: int)
    requires 0 <= at < dot < |s|
    ensures MatchesAt(Lower(s), at, dot) <==> MatchesAt(s, at, dot)
  {
    var l := Lower(s);
    assert l[..at] == Lower(s[..at]);
    assert l[at + 1..dot] == Lower(s[at + 1..dot]);
    assert l[dot + 1..] == Lower(s[dot + 1..]);
    PlainRunLower(s[..at]);
    PlainRunLower(s[at + 1..dot]);
    PlainRunLower(s[dot + 1..]);
  }

  /** Lowercasing an address never changes whether it matches. */
  lemma LowerKeepsEmailMatch(s: string)
    ensures MatchesEmailRegex(Lower(s)) <==> MatchesEmailRegex(s)
  {
    if MatchesEmailRegex(s) {
      var at, dot :| MatchesAt(s, at, dot);
      MatchesAtLower(s, at, dot);
    }
    if MatchesEmailRegex(Lower(s)) {
      var at, dot :| MatchesAt(Lower(s), at, dot);
      MatchesAtLower(s, at, dot);
    }
  }

  /* ------------------------------------------------------ required fields */

  datatype Verdict = Accepted | Refused(error: string)

  predicate RequiredPresent(f: ContactFields) {
    Truthy(f.firstName) && Truthy(f.lastName) && Truthy(f.email) && Truthy(f.automationGoal)
  }

  /** The required-field check and then the e-mail format check. */
  function Validate(f: ContactFields): (r: Verdict)
    ensures r.Accepted? <==> RequiredPresent(f) && MatchesEmailRegex(f.email.value)
    ensures !RequiredPresent(f) ==> r == Refused("Missing required fields")
    ensures RequiredPresent(f) && !MatchesEmailRegex(f.email.value) ==> r == Refused("Invalid email format")
  {
    EmailRegexTestCorrect(if f.email.Some? then f.email.value else "");
    if !RequiredPresent(f) then Refused("Missing required fields")
    else if !EmailRegexTest(f.email.value) then Refused("Invalid email format")
    else Accepted
  }

  /* ------------------------------------------------------------ reCAPTCHA */

  const RecaptchaScoreThreshold: real := 0.5

  const ExpectedAction: string := "contact_form_submit"

  /** What the siteverify call produced: it failed to complete, or it answered
      with these fields (`None` for a field the answer left out). */
  datatype SiteVerify =
    | VerifyUnreachable
    | VerifyAnswer(success: bool, action: Option<string>, score: Option<real>)

  datatype CaptchaVerdict =
    | CaptchaSkipped
    | CaptchaPassed(score: Option<real>)
    | CaptchaRefused(error: string)
    | CaptchaCrashed

  /** A score below the threshold; an answer without a score is never below it. */
  predicate LowScore(score: Option<real>) {
    score.Some? && score.value < RecaptchaScoreThreshold
  }

  /** The reCAPTCHA gate, given whether a secret is configured, the client's token
      and what siteverify answered. */
  function CaptchaDecision(configured: bool, token: Option<string>, answer: SiteVerify): (r: CaptchaVerdict)
    ensures r.CaptchaSkipped? <==> !configured
    ensures configured && !Truthy(token) ==> r == CaptchaRefused("reCAPTCHA verification required")
    ensures r.CaptchaCrashed? <==> configured && Truthy(token) && answer.VerifyUnreachable?
    ensures r.CaptchaPassed? <==>
              && configured && Truthy(token) && answer.VerifyAnswer?
              && answer.success && answer.action == Some(ExpectedAction) && !LowScore(answer.score)
    ensures r.CaptchaPassed? ==> r.score == answer.score
    ensures configured && Truthy(token) && answer.VerifyAnswer? && !answer.success
            ==> r == CaptchaRefused("reCAPTCHA verification failed")
    ensures configured && Truthy(token) && answer.VerifyAnswer? && answer.success
            && answer.action != Some(ExpectedAction)
            ==> r == CaptchaRefused("Invalid reCAPTCHA action")
    ensures configured && Truthy(token) && answer.VerifyAnswer? && answer.success
            && answer.action == Some(ExpectedAction) && LowScore(answer.score)
            ==> r == CaptchaRefused("Security check failed. Please try again.")
  {
    if !configured then CaptchaSkipped
    else if !Truthy(token) then CaptchaRefused("reCAPTCHA verification required")
    else match answer
      case VerifyUnreachable => CaptchaCrashed
      case VerifyAnswer(success, action, score) =>
        if !success then CaptchaRefused("reCAPTCHA verification failed")
        else if action != Some(ExpectedAction) then CaptchaRefused("Invalid reCAPTCHA action")
        else if LowScore(score) then CaptchaRefused("Security check failed. Please try again.")
        else CaptchaPassed(score)
  }

  /** Without a secret or without a token the siteverify answer is never consulted. */
  lemma CaptchaIgnoresAnswerWithoutCall(configured: bool, token: Option<string>, a1: SiteVerify, a2: SiteVerify)
    requires !configured || !Truthy(token)
    ensures CaptchaDecision(configured, token, a1) == CaptchaDecision(configured, token, a2)
  {
  }

  /* --------------------------------------------------------- normalisation */

  /** The record forwarded to the automation webhook. */
  datatype WebhookData = WebhookData(
    firstName: string,
    lastName: string,
    email: string,
    phone: Option<string>,
    company: Option<string>,
    automationGoal: string,
    submittedAt: string,
    source: string,
    ipAddress: string,
    recaptchaScore: Option<real>)

  const Source: string := "website-contact-form"

  /** `field?.trim() || null`. */
  function OptionalField(o: Option<string>): (r: Option<string>)
    ensures r.None? <==> o.None? || AllSpace(o.value)
    ensures r.Some? ==> r.value != "" && Bare(r.value)
    ensures o.Some? && o.value != "" && Bare(o.value) ==> r == o
    ensures r.Some? ==> r.value == Trim(o.value)
  {
    if o.None? then None
    else
      var t := Trim(o.value);
      if t == "" then None else Some(t)
  }

  /** `webhookData`: required fields trimmed, the address trimmed and
      lowercased, blank optional fields turned into `null`. */
  function Normalise(f: ContactFields, submittedAt: string, clientIp: string, score: Option<real>): (d: WebhookData)
    requires f.firstName.Some? && f.lastName.Some? && f.email.Some? && f.automationGoal.Some?
    ensures d.firstName == Trim(f.firstName.value) && d.lastName == Trim(f.lastName.value)
    ensures d.automationGoal == Trim(f.automationGoal.value)
    ensures Bare(d.firstName) && Bare(d.lastName) && Bare(d.automationGoal)
    ensures d.firstName == "" <==> AllSpace(f.firstName.value)
    ensures d.lastName == "" <==> AllSpace(f.lastName.value)
    ensures d.automationGoal == "" <==> AllSpace(f.automationGoal.value)
    ensures d.email == Trim(Lower(f.email.value))
    ensures d.phone.None? <==> f.phone.None? || AllSpace(f.phone.value)
    ensures d.company.None? <==> f.company.None? || AllSpace(f.company.value)
    ensures d.phone == OptionalField(f.phone) && d.company == OptionalField(f.company)
    ensures d.source == Source && d.ipAddress == clientIp
    ensures d.submittedAt == submittedAt && d.recaptchaScore == score
  {
    LowerTrimCommute(f.email.value);
    WebhookData(
      Trim(f.firstName.value),
      Trim(f.lastName.value),
      Lower(Trim(f.email.value)),
      OptionalField(f.phone),
      OptionalField(f.company),
      Trim(f.automationGoal.value),
      submittedAt,
      Source,
      clientIp,
      score)
  }

  /** For an address that passed the regex, the forwarded address is just its lowercase form. */
  lemma NormalisedEmailOfValid(f: ContactFields, submittedAt: string, clientIp: string, score: Option<real>)
    requires f.firstName.Some? && f.lastName.Some? && f.email.Some? && f.automationGoal.Some?
    requires Validate(f).Accepted?
    ensures Normalise(f, submittedAt, clientIp, score).email == Lower(f.email.value)
    ensures MatchesEmailRegex(Normalise(f, submittedAt, clientIp, score).email)
  {
    EmailRegexTestCorrect(f.email.value);
    LowerTrimCommute(f.email.value);
    LowerKeepsEmailMatch(f.email.value);
  }

  /** A name of spaces passes the presence check yet is forwarded as "". */
  lemma BlankNamePassesThenEmpties(f: ContactFields, submittedAt: string, clientIp: string)
    requires RequiredPresent(f) && MatchesEmailRegex(f.email.value)
    requires AllSpace(f.firstName.value)
    ensures Validate(f).Accepted?
    ensures Normalise(f, submittedAt, clientIp, None).firstName == ""
  {
  }

  /** The fields a normalised record would arrive with if it were submitted again. */
  function Resubmit(d: WebhookData): ContactFields {
    ContactFields(Some(d.firstName), Some(d.lastName), Some(d.email), d.phone, d.company,
                  Some(d.automationGoal), None)
  }

  /** Normalisation is a normal form: normalising its output changes nothing. */
  lemma NormaliseIdempotent(f: ContactFields, submittedAt: string, clientIp: string, score: Option<real>)
    requires f.firstName.Some? && f.lastName.Some? && f.email.Some? && f.automationGoal.Some?
    ensures var d := Normalise(f, submittedAt, clientIp, score);
            Normalise(Resubmit(d), submittedAt, clientIp, score) == d
  {
    var d := Normalise(f, submittedAt, clientIp, score);
    TrimIdempotent(Lower(f.email.value));
    LowerIdempotent(Trim(f.email.value));
    LowerTrimCommute(f.email.value);
    LowerTrimCommute(d.email);
  }
}

=== FILE: js_string.dfy ===
/**
 * The JavaScript string primitives the form backend relies on, written out
 * with the ECMAScript semantics that matter here: `trim` and the regex class
 * `\s` share one whitespace set, `substring` clamps and swaps its arguments,
 * `replace(/\n/g, …)` replaces every occurrence, and a template literal
 * renders a non-negative integer in decimal.
 */
module JsString {
  import opened Wrappers

  /** ECMAScript WhiteSpace plus LineTerminator: what `trim` strips and `\s` matches. */
  predicate IsSpace(c: char) {
    || c == '\t' || c == '\n' || c == '\U{B}' || c == '\U{C}' || c == '\r' || c == ' '
    || c == '\U{A0}' || c == '\U{1680}' || ('\U{2000}' <= c <= '\U{200A}')
    || c == '\U{2028}' || c == '\U{2029}' || c == '\U{202F}' || c == '\U{205F}'
    || c == '\U{3000}' || c == '\U{FEFF}'
  }

  predicate AllSpace(s: string) {
    forall i :: 0 <= i < |s| ==> IsSpace(s[i])
  }

  predicate NoSpace(s: string) {
    forall i :: 0 <= i < |s| ==> !IsSpace(s[i])
  }

  /** No whitespace at either end: the shape `trim` produces. */
  predicate Bare(s: string) {
    |s| == 0 || (!IsSpace(s[0]) && !IsSpace(s[|s| - 1]))
  }

  /** JavaScript truthiness of an optional string: present and not "". */
  predicate Truthy(o: Option<string>) {
    o.Some? && o.value != ""
  }

  /** `s.startsWith(prefix)`, for any sequence: `s` begins with `prefix`. */
  predicate StartsWith<T(==)>(s: seq<T>, prefix: seq<T>) {
    |prefix| <= |s| && s[..|prefix|] == prefix
  }

  /* ---------------------------------------------------------------- trim */

  /** Number of whitespace characters at the start of `s`. */
  function LeadingSpace(s: string): (n: nat)
    ensures n <= |s|
    ensures AllSpace(s[..n])
    ensures n < |s| ==> !IsSpace(s[n])
  {
    if |s| == 0 || !IsSpace(s[0]) then 0
    else
      var m := LeadingSpace(s[1..]);
      assert s[..1 + m] == [s[0]] + s[1..][..m];
      1 + m
  }

  /** Number of whitespace characters at the end of `s`. */
  function TrailingSpace(s: string): (n: nat)
    ensures n <= |s|
    ensures AllSpace(s[|s| - n..])
    ensures n < |s| ==> !IsSpace(s[|s| - n - 1])
  {
    if |s| == 0 || !IsSpace(s[|s| - 1]) then 0
    else
      var init := s[..|s| - 1];
      var m := TrailingSpace(init);
      assert s[|s| - (1 + m)..] == init[|init| - m..] + [s[|s| - 1]];
      1 + m
  }

  /** `String.prototype.trim`. */
  function Trim(s: string): (r: string)
    ensures |r| <= |s|
    ensures Bare(r)
    ensures r == "" <==> AllSpace(s)
    ensures Bare(s) ==> r == s
  {
    var t := s[LeadingSpace(s)..];
    var r := t[..|t| - TrailingSpace(t)];
    assert |r| > 0 ==> r[0] == t[0] && r[|r| - 1] == t[|t| - TrailingSpace(t) - 1];
    assert AllSpace(s) ==> LeadingSpace(s) == |s|;
    assert r == "" ==> s == s[..LeadingSpace(s)] + t[|t| - TrailingSpace(t)..];
    r
  }

  lemma {:induction false} LeadingSpaceOfSpacePrefix(a: string, x: string)
    requires AllSpace(a)
    ensures LeadingSpace(a + x) == |a| + LeadingSpace(x)
    decreases |a|
  {
    if |a| > 0 {
      assert (a + x)[1..] == a[1..] + x;
      LeadingSpaceOfSpacePrefix(a[1..], x);
    } else {
      assert a + x == x;
    }
  }

  lemma {:induction false} TrailingSpaceOfSpaceSuffix(x: string, b: string)
    requires AllSpace(b)
    ensures TrailingSpace(x + b) == TrailingSpace(x) + |b|
    decreases |b|
  {
    if |b| > 0 {
      assert (x + b)[..|x + b| - 1] == x + b[..|b| - 1];
      TrailingSpaceOfSpaceSuffix(x, b[..|b| - 1]);
    } else {
      assert x + b == x;
    }
  }

  /**
   * Reference characterisation of `trim`: whatever whitespace surrounds a
   * bare core, trimming returns exactly that core.
   */
  lemma TrimCharacterised(a: string, t: string, b: string)
    requires AllSpace(a) && AllSpace(b) && Bare(t)
    ensures Trim(a + t + b) == t
  {
    var s := a + t + b;
    if t == "" {
      assert s == a + b;
      assert AllSpace(s) by {
        forall i | 0 <= i < |s| ensures IsSpace(s[i]) {
          if i < |a| { assert s[i] == a[i]; } else { assert s[i] == b[i - |a|]; }
        }
      }
    } else {
      assert s == a + (t + b);
      LeadingSpaceOfSpacePrefix(a, t + b);
      assert LeadingSpace(t + b) == 0;
      var u := s[LeadingSpace(s)..];
      assert u == t + b;
      TrailingSpaceOfSpaceSuffix(t, b);
      assert TrailingSpace(t) == 0;
      assert u[..|u| - TrailingSpace(u)] == t;
    }
  }

  /** `trim` cuts `s` into leading whitespace, the result, and trailing whitespace. */
  lemma TrimDecomposes(s: string)
    ensures var i := LeadingSpace(s); var r := Trim(s);
            && i + |r| <= |s|
            && s == s[..i] + r + s[i + |r|..]
            && AllSpace(s[..i]) && AllSpace(s[i + |r|..])
  {
    var i := LeadingSpace(s);
    var t := s[i..];
    var n := TrailingSpace(t);
    var j := i + |t| - n;
    assert Trim(s) == t[..|t| - n] == s[i..j];
    assert s[j..] == t[|t| - n..];
    SplitThree(s, i, j);
  }

  lemma SplitThree(s: string, i: int, j: int)
    requires 0 <= i <= j <= |s|
    ensures s == s[..i] + s[i..j] + s[j..]
  {
  }

  lemma TrimIdempotent(s: string)
    ensures Trim(Trim(s)) == Trim(s)
  {
  }

  /* --------------------------------------------------------- toLowerCase */

  predicate IsAsciiUpper(c: char) {
    'A' <= c <= 'Z'
  }

  function LowerChar(c: char): char {
    if IsAsciiUpper(c) then (c as int + 32) as char else c
  }

  /** `String.prototype.toLowerCase`, restricted to the ASCII letters. */
  function Lower(s: string): (r: string)
    ensures |r| == |s|
    ensures forall i :: 0 <= i < |r| ==> !IsAsciiUpper(r[i])
    ensures forall i :: 0 <= i < |s| && IsAsciiUpper(s[i]) ==> r[i] as int == s[i] as int + 32
    ensures forall i :: 0 <= i < |s| && !IsAsciiUpper(s[i]) ==> r[i] == s[i]
  {
    seq(|s|, i requires 0 <= i < |s| => LowerChar(s[i]))
  }

  lemma LowerIdempotent(s: string)
    ensures Lower(Lower(s)) == Lower(s)
  {
  }

  lemma LowerConcat(a: string, b: string)
    ensures Lower(a + b) == Lower(a) + Lower(b)
  {
  }

  /** Lowercasing never creates or removes whitespace. */
  lemma LowerKeepsSpace(s: string)
    ensures forall i :: 0 <= i < |s| ==> (IsSpace(Lower(s)[i]) <==> IsSpace(s[i]))
  {
  }

  /** Trimming and lowercasing commute, so `trim().toLowerCase()` equals `toLowerCase().trim()`. */
  lemma LowerTrimCommute(s: string)
    ensures Lower(Trim(s)) == Trim(Lower(s))
  {
    TrimDecomposes(s);
    var i := LeadingSpace(s);
    var r := Trim(s);
    var a, b := s[..i], s[i + |r|..];
    assert s == a + r + b;
    LowerConcat(a + r, b);
    LowerConcat(a, r);
    LowerOfSpace(a);
    LowerOfSpace(b);
    LowerKeepsBare(r);
    assert Lower(s) == a + Lower(r) + b;
    TrimCharacterised(a, Lower(r), b);
  }

  /** Whitespace has no capitals, so lowercasing leaves it alone. */
  lemma LowerOfSpace(a: string)
    requires AllSpace(a)
    ensures Lower(a) == a
  {
    assert forall i :: 0 <= i < |a| ==> IsSpace(a[i]) && !IsAsciiUpper(a[i]);
  }

  lemma LowerKeepsBare(r: string)
    requires Bare(r)
    ensures Bare(Lower(r))
  {
    LowerKeepsSpace(r);
  }

  /* ------------------------------------------------------------ substring */

  function Clamp(x: int, hi: nat): (r: nat)
    ensures r <= hi
    ensures 0 <= x <= hi ==> r == x
  {
    if x < 0 then 0 else if x > hi then hi else x
  }

  /**
   * `s.substring(start, end)`: both indices are clamped to `[0, |s|]` and
   * swapped when `start > end`.
   */
  function Substring(s: string, start: int, end: int): (r: string)
    ensures 0 <= start <= end <= |s| ==> r == s[start..end]
    // out-of-range ends are clamped, and the smaller clamped end always starts the slice
    ensures var a, b := Clamp(start, |s|), Clamp(end, |s|);
            r == if a <= b then s[a..b] else s[b..a]
    ensures |r| == if Clamp(start, |s|) <= Clamp(end, |s|)
                   then Clamp(end, |s|) - Clamp(start, |s|)
                   else Clamp(start, |s|) - Clamp(end, |s|)
  {
    var a := Clamp(start, |s|);
    var b := Clamp(end, |s|);
    if a <= b then s[a..b] else s[b..a]
  }

  /** `s.substring(start)`: the end defaults to the length. */
  function SubstringFrom(s: string, start: int): (r: string)
    ensures |r| == |s| - Clamp(start, |s|)
    ensures r == s[|s| - |r|..]
  {
    Substring(s, start, |s|)
  }

  /** The argument order of `substring` does not matter. */
  lemma SubstringSymmetric(s: string, start: int, end: int)
    ensures Substring(s, start, end) == Substring(s, end, start)
  {
  }

  /* ---------------------------------------------------------- replace /c/g */

  function CountChar(s: string, c: char): (n: nat)
    ensures n <= |s|
    ensures n == 0 <==> c !in s
  {
    if |s| == 0 then 0 else (if s[0] == c then 1 else 0) + CountChar(s[1..], c)
  }

  /** `s.replace(/c/g, rep)`: every occurrence of `c`, not just the first, becomes `rep`. */
  function ReplaceAll(s: string, c: char, rep: string): (r: string)
    ensures c !in s ==> r == s
    ensures c !in rep ==> c !in r
  {
    if |s| == 0 then ""
    else (if s[0] == c then rep else [s[0]]) + ReplaceAll(s[1..], c, rep)
  }

  lemma {:induction false} ReplaceAllConcat(a: string, b: string, c: char, rep: string)
    ensures ReplaceAll(a + b, c, rep) == ReplaceAll(a, c, rep) + ReplaceAll(b, c, rep)
    decreases |a|
  {
    if |a| == 0 {
      assert a + b == b;
    } else {
      assert (a + b)[1..] == a[1..] + b;
      ReplaceAllConcat(a[1..], b, c, rep);
    }
  }

  /** The first occurrence of `c` is replaced in place: what precedes it is kept
      as it is, `rep` stands where `c` stood, and the rest is replaced in turn. */
  lemma ReplaceAllAtFirst(a: string, b: string, c: char, rep: string)
    requires c !in a
    ensures ReplaceAll(a + [c] + b, c, rep) == a + rep + ReplaceAll(b, c, rep)
  {
    ReplaceAllConcat(a + [c], b, c, rep);
    ReplaceAllConcat(a, [c], c, rep);
    assert ReplaceAll(a, c, rep) == a;
    assert [c][1..] == [];
    assert ReplaceAll([c], c, rep) == rep;
    assert ReplaceAll(a + [c], c, rep) == a + rep;
  }

  /** `parts.join(sep)`. */
  function Join(parts: seq<string>, sep: string): string {
    if |parts| == 0 then ""
    else if |parts| == 1 then parts[0]
    else parts[0] + sep + Join(parts[1..], sep)
  }

  /** `s.split(c)`: the pieces between occurrences of `c`, which joined by `c` give `s` back. */
  function SplitOn(s: string, c: char): (r: seq<string>)
    ensures |r| == CountChar(s, c) + 1
    ensures forall i :: 0 <= i < |r| ==> c !in r[i]
    ensures Join(r, [c]) == s
    decreases |s|
  {
    if |s| == 0 then [""]
    else
      var rest := SplitOn(s[1..], c);
      assert s == [s[0]] + s[1..];
      if s[0] == c then
        JoinCons("", rest, [c]);
        [""] + rest
      else
        JoinExtendHead(s[0], rest, [c]);
        var r := [[s[0]] + rest[0]] + rest[1..];
        assert c !in [s[0]] + rest[0];
        assert forall i :: 1 <= i < |r| ==> r[i] == rest[i];
        r
  }

  /** Joining one more leading part puts it and a separator in front. */
  lemma JoinCons(x: string, rest: seq<string>, sep: string)
    requires |rest| > 0
    ensures Join([x] + rest, sep) == x + sep + Join(rest, sep)
  {
    assert ([x] + rest)[1..] == rest;
  }

  /** Prefixing the first part with `ch` prefixes the joined string with `ch`. */
  lemma JoinExtendHead(ch: char, rest: seq<string>, sep: string)
    requires |rest| > 0
    ensures Join([[ch] + rest[0]] + rest[1..], sep) == [ch] + Join(rest, sep)
  {
    var r := [[ch] + rest[0]] + rest[1..];
    if |rest| > 1 {
      assert r[1..] == rest[1..];
      assert Join(rest, sep) == rest[0] + sep + Join(rest[1..], sep);
    }
  }

  /** Replacing every `c` in lines joined by `c` joins the same lines by `rep`. */
  lemma {:induction false} ReplaceAllJoin(lines: seq<string>, c: char, rep: string)
    requires forall i :: 0 <= i < |lines| ==> c !in lines[i]
    ensures ReplaceAll(Join(lines, [c]), c, rep) == Join(lines, rep)
    decreases |lines|
  {
    if |lines| == 1 {
      assert c !in lines[0];
    } else if |lines| > 1 {
      assert c !in lines[0];
      ReplaceAllJoin(lines[1..], c, rep);
      assert Join(lines, [c]) == lines[0] + [c] + Join(lines[1..], [c]);
      ReplaceAllAtFirst(lines[0], Join(lines[1..], [c]), c, rep);
    }
  }

  lemma MulSucc(k: int, d: int)
    ensures (k + 1) * d == k * d + d
  {
  }

  /** Each occurrence of `c` grows the text by `|rep| - 1` characters. */
  lemma {:induction false} ReplaceAllLength(s: string, c: char, rep: string)
    ensures |ReplaceAll(s, c, rep)| == |s| + CountChar(s, c) * (|rep| - 1)
    decreases |s|
  {
    if |s| > 0 {
      ReplaceAllLength(s[1..], c, rep);
      var k := CountChar(s[1..], c);
      var d := |rep| - 1;
      var tail := ReplaceAll(s[1..], c, rep);
      assert |tail| == |s| - 1 + k * d;
      if s[0] == c {
        assert ReplaceAll(s, c, rep) == rep + tail;
        assert CountChar(s, c) == k + 1;
        MulSucc(k, d);
      } else {
        assert ReplaceAll(s, c, rep) == [s[0]] + tail;
        assert CountChar(s, c) == k;
      }
    }
  }

  /* -------------------------------------------------------------- decimal */

  predicate IsDigit(c: char) {
    '0' <= c <= '9'
  }

  predicate AllDigits(s: string) {
    forall i :: 0 <= i < |s| ==> IsDigit(s[i])
  }

  function DigitChar(d: nat): (c: char)
    requires d < 10
    ensures IsDigit(c)
    ensures c as int - '0' as int == d
  {
    ('0' as int + d) as char
  }

  /** How `${n}` renders a non-negative integer: decimal, no leading zero. */
  function NatToString(n: nat): (r: string)
    ensures |r| >= 1
    ensures AllDigits(r)
    ensures n > 0 ==> r[0] != '0'
    decreases n
  {
    if n < 10 then [DigitChar(n)]
    else NatToString(n / 10) + [DigitChar(n % 10)]
  }

  /** The number a string of decimal digits denotes. */
  function DecimalValue(s: string): nat
    requires AllDigits(s)
  {
    if |s| == 0 then 0
    else 10 * DecimalValue(s[..|s| - 1]) + (s[|s| - 1] as int - '0' as int)
  }

  lemma {:induction false} DecimalRoundTrip(n: nat)
    ensures DecimalValue(NatToString(n)) == n
    decreases n
  {
    if n >= 10 {
      var r := NatToString(n);
      assert r[..|r| - 1] == NatToString(n / 10);
      DecimalRoundTrip(n / 10);
    }
  }

  /** Distinct numbers render differently. */
  lemma NatToStringInjective(m: nat, n: nat)
    requires NatToString(m) == NatToString(n)
    ensures m == n
  {
    DecimalRoundTrip(m);
    DecimalRoundTrip(n);
  }
}

=== FILE: mailer.dfy ===
/**
 * The notification e-mail: the lazily created SMTP transporter and the
 * message built from a contact submission.
 *
 * The transporter is cached in a module-level variable; here the cache is
 * passed in and handed back. Whether the SMTP server accepts the message is
 * an input (`delivered`). Both e-mail bodies are a heading, one labelled line
 * per field, and the message; the HTML one turns every line break of the
 * message into `<br />` and escapes nothing else.
 */
module Mailer {
  import opened Wrappers
  import opened JsString

  const SmtpHost: string := "smtp.zoho.com"
  const SmtpPort: nat := 465
  const Recipient: string := "logan@engrainai.com"
  const SubjectPrefix: string := "New Contact Form Submission from "
  const NotProvided: string := "Not provided"
  const MissingCredentials: string := "ZOHO_EMAIL and ZOHO_PASSWORD environment variables are required"

  /** `ZOHO_EMAIL` and `ZOHO_PASSWORD`. */
  datatype MailEnv = MailEnv(zohoEmail: Option<string>, zohoPassword: Option<string>)

  datatype Transporter = Transporter(host: string, port: nat, secure: bool, user: string, pass: string)

  /** The transporter (or the error thrown) and the cache afterwards. */
  datatype Lookup = Lookup(result: Result<Transporter, string>, cache: Option<Transporter>)

  /** `getTransporter()`: reuse the cached transporter, else build one from the credentials. */
  function GetTransporter(cache: Option<Transporter>, env: MailEnv): (r: Lookup)
    ensures r.result.Success? <==> cache.Some? || (Truthy(env.zohoEmail) && Truthy(env.zohoPassword))
    ensures r.result.Failure? ==> r.result.error == MissingCredentials && r.cache == None
    ensures r.result.Success? ==> r.cache == Some(r.result.value)
    ensures cache.Some? ==> r.result == Success(cache.value)
    ensures cache.None? && r.result.Success? ==>
              r.result.value == Transporter(SmtpHost, SmtpPort, true, env.zohoEmail.value, env.zohoPassword.value)
  {
    if cache.Some? then Lookup(Success(cache.value), cache)
    else if !Truthy(env.zohoEmail) || !Truthy(env.zohoPassword) then Lookup(Failure(MissingCredentials), None)
    else
      var t := Transporter(SmtpHost, SmtpPort, true, env.zohoEmail.value, env.zohoPassword.value);
      Lookup(Success(t), Some(t))
  }

  /** Once a transporter exists, every later call returns that one, whatever the environment says. */
  lemma TransporterCached(cache: Option<Transporter>, e1: MailEnv, e2: MailEnv)
    requires GetTransporter(cache, e1).result.Success?
    ensures var first := GetTransporter(cache, e1);
            GetTransporter(first.cache, e2) == first
  {
  }

  /** A failed call caches nothing, so a later call with credentials succeeds. */
  lemma FailureIsNotCached(e1: MailEnv, e2: MailEnv)
    requires GetTransporter(None, e1).result.Failure?
    requires Truthy(e2.zohoEmail) && Truthy(e2.zohoPassword)
    ensures GetTransporter(GetTransporter(None, e1).cache, e2).result.Success?
  {
  }

  /* -------------------------------------------------------------- bodies */

  /** `value || "Not provided"`. */
  function OrNotProvided(v: Option<string>): (r: string)
    ensures Truthy(v) ==> r == v.value
    ensures !Truthy(v) ==> r == NotProvided
  {
    if Truthy(v) then v.value else NotProvided
  }

  /** `s` occurs somewhere in `t`. */
  predicate Infix(s: string, t: string) {
    exists i :: 0 <= i <= |t| && OccursAt(s, t, i)
  }

  predicate OccursAt(s: string, t: string, i: int) {
    0 <= i && i + |s| <= |t| && t[i..i + |s|] == s
  }

  lemma InfixBetween(s: string, p: string, q: string)
    ensures Infix(s, p + s + q)
  {
    assert (p + s + q)[|p|..|p| + |s|] == s;
    assert OccursAt(s, p + s + q, |p|);
  }

  lemma InfixWiden(s: string, t: string, p: string, q: string)
    requires Infix(s, t)
    ensures Infix(s, p + t + q)
  {
    var i :| 0 <= i <= |t| && OccursAt(s, t, i);
    assert (p + t + q)[|p| + i..|p| + i + |s|] == t[i..i + |s|];
    assert OccursAt(s, p + t + q, |p| + i);
  }

  lemma Regroup(a: string, b: string, c: string, d: string, e: string)
    ensures a + b + c + d + e == a + b + (c + d + e)
    ensures a + b + c + d + e == (a + b + c) + d + e
    ensures a + b + c + d == a + b + (c + d)
  {
  }

  /** A labelled line of the e-mail, such as `Phone: …`. */
  datatype Field = Field(caption: string, value: string)

  function HtmlField(f: Field): string {
    "      <p><strong>" + f.caption + ":</strong> " + f.value + "</p>\n"
  }

  function TextField(f: Field): string {
    f.caption + ": " + f.value + "\n"
  }

  function FieldsHtml(fs: seq<Field>): string
    decreases |fs|
  {
    if |fs| == 0 then "" else HtmlField(fs[0]) + FieldsHtml(fs[1..])
  }

  function FieldsText(fs: seq<Field>): string
    decreases |fs|
  {
    if |fs| == 0 then "" else TextField(fs[0]) + FieldsText(fs[1..])
  }

  /** Every field gets its line, in both bodies. */
  lemma {:induction false} FieldListed(fs: seq<Field>, i: nat)
    requires i < |fs|
    ensures Infix(HtmlField(fs[i]), FieldsHtml(fs))
    ensures Infix(TextField(fs[i]), FieldsText(fs))
    decreases i
  {
    if i == 0 {
      assert FieldsHtml(fs) == "" + HtmlField(fs[0]) + FieldsHtml(fs[1..]);
      assert FieldsText(fs) == "" + TextField(fs[0]) + FieldsText(fs[1..]);
      InfixBetween(HtmlField(fs[0]), "", FieldsHtml(fs[1..]));
      InfixBetween(TextField(fs[0]), "", FieldsText(fs[1..]));
    } else {
      FieldListed(fs[1..], i - 1);
      assert fs[1..][i - 1] == fs[i];
      assert FieldsHtml(fs) == HtmlField(fs[0]) + FieldsHtml(fs[1..]) + "";
      assert FieldsText(fs) == TextField(fs[0]) + FieldsText(fs[1..]) + "";
      InfixWiden(HtmlField(fs[i]), FieldsHtml(fs[1..]), HtmlField(fs[0]), "");
      InfixWiden(TextField(fs[i]), FieldsText(fs[1..]), TextField(fs[0]), "");
    }
  }

  const HtmlHeading: string := "\n      <h2>New Contact Form Submission</h2>\n"
  const HtmlBeforeMessage: string := "      <hr />\n      <h3>Message:</h3>\n      "
  const HtmlAfterMessage: string :=
    "\n      <hr />\n      <p style=\"color: #666; font-size: 12px;\">\n        Sent from Engrain AI website contact form\n      </p>\n    "
  const TextHeading: string := "\nNew Contact Form Submission\n\n"
  const TextFooter: string := "\n---\nSent from Engrain AI website contact form\n    "

  /** The message paragraph of the HTML body. */
  function HtmlParagraph(message: string): (r: string)
    ensures '\n' !in r
    ensures '\n' !in message ==> r == "<p>" + message + "</p>"
    ensures |r| == |message| + 5 * CountChar(message, '\n') + 7
  {
    ReplaceAllLength(message, '\n', "<br />");
    "<p>" + ReplaceAll(message, '\n', "<br />") + "</p>"
  }

  /** Each line break of the message becomes `<br />` where it stood: a message
      made of lines joined by line breaks shows the same lines joined by `<br />`. */
  lemma HtmlBreaksInPlace(lines: seq<string>)
    requires forall i :: 0 <= i < |lines| ==> '\n' !in lines[i]
    ensures HtmlParagraph(Join(lines, "\n")) == "<p>" + Join(lines, "<br />") + "</p>"
  {
    ReplaceAllJoin(lines, '\n', "<br />");
  }

  /** Every message is its lines joined by line breaks, so its paragraph is those
      lines joined by `<br />`. */
  lemma HtmlParagraphOfLines(message: string)
    ensures HtmlParagraph(message) == "<p>" + Join(SplitOn(message, '\n'), "<br />") + "</p>"
  {
    HtmlBreaksInPlace(SplitOn(message, '\n'));
  }

  /** The message block of the text body: the message verbatim. */
  function TextMessage(message: string): string {
    "\nMessage:\n" + message + "\n"
  }

  datatype MailOptions = MailOptions(
    from: Option<string>,
    to: string,
    replyTo: string,
    subject: string,
    html: string,
    text: string)

  function MailFields(name: string, email: string, extra: seq<Field>): seq<Field> {
    [Field("Name", name), Field("Email", email)] + extra
  }

  /** The `mailOptions` object: fixed sender, recipient and subject, reply to the submitter. */
  function ComposeMail(from: Option<string>, name: string, email: string, extra: seq<Field>, message: string)
    : (m: MailOptions)
    ensures m.from == from && m.to == Recipient && m.replyTo == email
    ensures m.subject == SubjectPrefix + name
  {
    var fs := MailFields(name, email, extra);
    MailOptions(from, Recipient, email, SubjectPrefix + name,
                HtmlHeading + FieldsHtml(fs) + HtmlBeforeMessage + HtmlParagraph(message) + HtmlAfterMessage,
                TextHeading + FieldsText(fs) + TextMessage(message) + TextFooter)
  }

  /** Both bodies show every field on its own line and the message; nothing is left out. */
  lemma MailShowsEverything(from: Option<string>, name: string, email: string, extra: seq<Field>, message: string)
    ensures var m := ComposeMail(from, name, email, extra, message);
            && (forall f :: f in MailFields(name, email, extra) ==>
                  Infix(HtmlField(f), m.html) && Infix(TextField(f), m.text))
            && Infix(HtmlParagraph(message), m.html)
            && Infix(TextMessage(message), m.text)
  {
    var m := ComposeMail(from, name, email, extra, message);
    var fs := MailFields(name, email, extra);
    var head, tail := HtmlHeading, HtmlBeforeMessage + HtmlParagraph(message) + HtmlAfterMessage;
    var theadtext, ttail := TextHeading, TextMessage(message) + TextFooter;
    Regroup(HtmlHeading, FieldsHtml(fs), HtmlBeforeMessage, HtmlParagraph(message), HtmlAfterMessage);
    Regroup(TextHeading, FieldsText(fs), TextMessage(message), TextFooter, "");
    forall f | f in fs
      ensures Infix(HtmlField(f), m.html) && Infix(TextField(f), m.text)
    {
      var i :| 0 <= i < |fs| && fs[i] == f;
      FieldListed(fs, i);
      InfixWiden(HtmlField(f), FieldsHtml(fs), head, tail);
      InfixWiden(TextField(f), FieldsText(fs), theadtext, ttail);
    }
    InfixBetween(HtmlParagraph(message), HtmlHeading + FieldsHtml(fs) + HtmlBeforeMessage, HtmlAfterMessage);
    InfixBetween(TextMessage(message), TextHeading + FieldsText(fs), TextFooter);
  }

  /* ------------------------------------------------------ sendContactEmail */

  /** The fields `server/email.ts` accepts. */
  datatype ContactFormData = ContactFormData(name: string, email: string, phone: Option<string>, message: string)

  function ServerMail(from: Option<string>, d: ContactFormData): (m: MailOptions)
    ensures m.from == from && m.to == Recipient && m.replyTo == d.email
    ensures m.subject == SubjectPrefix + d.name
    ensures Infix(HtmlField(Field("Name", d.name)), m.html) && Infix(TextField(Field("Name", d.name)), m.text)
    ensures Infix(HtmlField(Field("Email", d.email)), m.html) && Infix(TextField(Field("Email", d.email)), m.text)
    ensures Infix(HtmlField(Field("Phone", OrNotProvided(d.phone))), m.html)
    ensures Infix(TextField(Field("Phone", OrNotProvided(d.phone))), m.text)
    ensures Infix(HtmlParagraph(d.message), m.html)
    ensures Infix(TextMessage(d.message), m.text)
  {
    var extra := [Field("Phone", OrNotProvided(d.phone))];
    MailShowsEverything(from, d.name, d.email, extra, d.message);
    var fs := MailFields(d.name, d.email, extra);
    assert fs[0] in fs && fs[1] in fs && fs[2] in fs;
    ComposeMail(from, d.name, d.email, extra, d.message)
  }

  datatype SendError = TransporterError(message: string) | DeliveryFailed

  /** What went out, and over which transporter. */
  datatype Delivery = Delivery(via: Transporter, mail: MailOptions)

  datatype Sent = Sent(result: Result<Delivery, SendError>, cache: Option<Transporter>)

  /** `getTransporter().sendMail(mail)`, with the server's verdict as `delivered`. */
  function SendMail(cache: Option<Transporter>, env: MailEnv, mail: MailOptions, delivered: bool): (r: Sent)
    ensures r.cache == GetTransporter(cache, env).cache
    ensures r.result.Success? <==> GetTransporter(cache, env).result.Success? && delivered
    ensures r.result.Success? ==> r.result.value == Delivery(GetTransporter(cache, env).result.value, mail)
    ensures GetTransporter(cache, env).result.Failure? ==> r.result == Failure(TransporterError(MissingCredentials))
    ensures GetTransporter(cache, env).result.Success? && !delivered ==> r.result == Failure(DeliveryFailed)
  {
    var lookup := GetTransporter(cache, env);
    match lookup.result
    case Failure(e) => Sent(Failure(TransporterError(e)), lookup.cache)
    case Success(t) => Sent(if delivered then Success(Delivery(t, mail)) else Failure(DeliveryFailed), lookup.cache)
  }

  /** `sendContactEmail(data)`: the mail goes out only with credentials or a cached transporter. */
  function SendContactEmail(cache: Option<Transporter>, env: MailEnv, d: ContactFormData, delivered: bool): (r: Sent)
    ensures r.result.Success? <==> (cache.Some? || (Truthy(env.zohoEmail) && Truthy(env.zohoPassword))) && delivered
    ensures r.result.Success? ==>
              && r.result.value.mail == ServerMail(env.zohoEmail, d)
              && r.result.value.mail.to == Recipient
              && r.cache == Some(r.result.value.via)
    ensures r.cache.None? ==> r.result == Failure(TransporterError(MissingCredentials))
  {
    SendMail(cache, env, ServerMail(env.zohoEmail, d), delivered)
  }
}

=== FILE: rate_limit.dfy ===
/**
 * The contact endpoint's fixed-window rate limiter: per client address, a
 * request counter and the time its window started, at most five requests per
 * fifteen-minute window. Times are milliseconds since the epoch, given by the
 * caller instead of read from the clock.
 */
module RateLimit {

  /** Fifteen minutes, in milliseconds. */
  const RateLimitWindow: nat := 15 * 60 * 1000

  const MaxRequestsPerWindow: nat := 5

  datatype Entry = Entry(count: nat, startTime: nat)

  /** The limiter's memory: client address to its current window. */
  type Limits = map<string, Entry>

  /** Whether the request may proceed, and the limiter afterwards. */
  datatype Step = Step(allowed: bool, limits: Limits)

  /** A window is over only once strictly more than the window length has passed. */
  predicate Expired(e: Entry, now: nat) {
    now - e.startTime > RateLimitWindow
  }

  /** One request from `client` at time `now`. */
  function Check(m: Limits, client: string, now: nat): (r: Step)
    ensures client in r.limits
    ensures forall k :: k != client ==> (k in r.limits <==> k in m)
    ensures forall k :: k != client && k in m ==> r.limits[k] == m[k]
    ensures r.allowed <==> client !in m || Expired(m[client], now) || m[client].count < MaxRequestsPerWindow
    ensures client !in m ==> r.limits[client] == Entry(1, now)
    ensures client in m && Expired(m[client], now) ==> r.limits[client] == Entry(1, now)
    ensures client in m && !Expired(m[client], now) && m[client].count >= MaxRequestsPerWindow
            ==> r.limits == m
    ensures client in m && !Expired(m[client], now) && m[client].count < MaxRequestsPerWindow
            ==> r.limits[client] == Entry(m[client].count + 1, m[client].startTime)
  {
    if client in m then
      var e := m[client];
      if Expired(e, now) then Step(true, m[client := Entry(1, now)])
      else if e.count >= MaxRequestsPerWindow then Step(false, m)
      else Step(true, m[client := e.(count := e.count + 1)])
    else Step(true, m[client := Entry(1, now)])
  }

  /** Every stored window has admitted at least one and at most five requests. */
  predicate Valid(m: Limits) {
    forall k :: k in m ==> 1 <= m[k].count <= MaxRequestsPerWindow
  }

  lemma CheckPreservesValid(m: Limits, client: string, now: nat)
    requires Valid(m)
    ensures Valid(Check(m, client, now).limits)
  {
  }

  /* ---------------------------------------------------- request streams */

  datatype Hit = Hit(client: string, now: nat)

  /** The limiter after a stream of requests. */
  function Replay(m: Limits, hits: seq<Hit>): Limits
    decreases |hits|
  {
    if |hits| == 0 then m
    else Replay(Check(m, hits[0].client, hits[0].now).limits, hits[1..])
  }

  /** How many requests of `c` in the stream get past the limiter. */
  function Admitted(m: Limits, hits: seq<Hit>, c: string): nat
    decreases |hits|
  {
    if |hits| == 0 then 0
    else
      var step := Check(m, hits[0].client, hits[0].now);
      (if hits[0].client == c && step.allowed then 1 else 0) + Admitted(step.limits, hits[1..], c)
  }

  lemma {:induction false} ReplayPreservesValid(m: Limits, hits: seq<Hit>)
    requires Valid(m)
    ensures Valid(Replay(m, hits))
    decreases |hits|
  {
    if |hits| > 0 {
      CheckPreservesValid(m, hits[0].client, hits[0].now);
      ReplayPreservesValid(Check(m, hits[0].client, hits[0].now).limits, hits[1..]);
    }
  }

  /**
   * Within one window, however the requests of other clients interleave,
   * a client that has used `count` requests gets at most `5 - count` more.
   */
  lemma {:induction false} WindowCap(m: Limits, hits: seq<Hit>, c: string)
    requires Valid(m)
    requires c in m
    requires forall i :: 0 <= i < |hits| && hits[i].client == c ==>
               hits[i].now - m[c].startTime <= RateLimitWindow
    ensures Admitted(m, hits, c) <= MaxRequestsPerWindow - m[c].count
    decreases |hits|
  {
    if |hits| > 0 {
      var step := Check(m, hits[0].client, hits[0].now);
      CheckPreservesValid(m, hits[0].client, hits[0].now);
      assert step.limits[c].startTime == m[c].startTime;
      assert forall i :: 1 <= i < |hits| ==> hits[1..][i - 1] == hits[i];
      WindowCap(step.limits, hits[1..], c);
    }
  }

  /**
   * A client the limiter has not seen gets at most five requests through
   * while its requests stay within fifteen minutes of its first one.
   */
  lemma NewClientCap(m: Limits, hits: seq<Hit>, c: string)
    requires Valid(m)
    requires c !in m
    requires |hits| > 0 && hits[0].client == c
    requires forall i :: 0 <= i < |hits| && hits[i].client == c ==>
               hits[i].now - hits[0].now <= RateLimitWindow
    ensures Admitted(m, hits, c) <= MaxRequestsPerWindow
  {
    var m1 := Check(m, c, hits[0].now).limits;
    CheckPreservesValid(m, c, hits[0].now);
    assert forall i :: 1 <= i < |hits| ==> hits[1..][i - 1] == hits[i];
    WindowCap(m1, hits[1..], c);
  }
}

=== FILE: routes.dfy ===
/**
 * The Express routes for consultation and demo-call requests and the
 * fire-and-forget webhook they start.
 *
 * A POST validates the body, makes exactly one store write, starts the
 * webhook with the validated fields, and answers 201 with the stored record;
 * a validation failure answers 400 without touching the store or the webhook.
 * The webhook's own outcome is never awaited, so it is not an input here:
 * starting it is recorded as an effect. The id, the creation time and the
 * ISO timestamp are parameters, and `storageFault` stands for the storage
 * call rejecting (which the in-memory store never does).
 */
module Routes {
  import opened Wrappers
  import opened JsString
  import opened Schema
  import opened Storage

  /** `WEBHOOK_URL` and `WEBHOOK_API_KEY`. */
  datatype WebhookEnv = WebhookEnv(url: Option<string>, apiKey: Option<string>)

  datatype FormData = ConsultationData(consultation: InsertConsultationRequest) | DemoCallData(demoCall: InsertDemoCallRequest)

  /** The JSON body of the webhook POST: `{ formType, data, timestamp }`. */
  datatype WebhookPayload = WebhookPayload(formType: string, data: FormData, timestamp: string)

  datatype WebhookPost = WebhookPost(
    url: string,
    headers: seq<(string, string)>,
    payload: WebhookPayload,
    maskedUrl: string)   // what the log shows of the URL

  datatype WebhookAttempt = WebhookSkipped | WebhookPosted(post: WebhookPost)

  function Min(a: int, b: int): int {
    if a <= b then a else b
  }

  /** `url.substring(0, 20) + "..." + url.substring(url.length - 10)`. */
  function MaskUrl(url: string): (r: string)
    ensures r == url[..Min(20, |url|)] + "..." + url[|url| - Min(10, |url|)..]
    ensures |r| == Min(20, |url|) + 3 + Min(10, |url|)
  {
    Substring(url, 0, 20) + "..." + SubstringFrom(url, |url| - 10)
  }

  /** A URL of thirty characters or fewer is shown in full, its middle included. */
  lemma ShortUrlFullyShown(url: string)
    requires |url| <= 30
    ensures var r := MaskUrl(url); var k := Min(20, |url|);
            url == r[..k] + r[k + 3 + Min(10, |url|) - (|url| - k)..]
  {
    var r := MaskUrl(url);
    if |url| <= 10 {
      assert r == url + "..." + url;
      assert r[..|url|] == url;
    } else if |url| <= 20 {
      assert r == url + "..." + url[|url| - 10..];
      assert r[..|url|] == url;
    } else {
      var tail := url[|url| - 10..];
      assert r == url[..20] + "..." + tail;
      assert r[..20] == url[..20];
      assert r[53 - |url|..] == tail[30 - |url|..];
      assert tail[30 - |url|..] == url[20..];
      assert url == url[..20] + url[20..];
    }
  }

  /** `sendToWebhook(data, formType)` up to the network call. */
  function SendToWebhook(data: FormData, formType: string, env: WebhookEnv, timestamp: string): (r: WebhookAttempt)
    ensures r.WebhookSkipped? <==> !Truthy(env.url) || !Truthy(env.apiKey)
    ensures r.WebhookPosted? ==>
              && r.post.url == env.url.value
              && r.post.headers == [("Content-Type", "application/json"), ("X-Key", env.apiKey.value)]
              && r.post.payload == WebhookPayload(formType, data, timestamp)
              && r.post.maskedUrl == MaskUrl(env.url.value)
  {
    if !Truthy(env.url) || !Truthy(env.apiKey) then WebhookSkipped
    else
      var url := env.url.value;
      WebhookPosted(WebhookPost(url, [("Content-Type", "application/json"), ("X-Key", env.apiKey.value)],
                                WebhookPayload(formType, data, timestamp), MaskUrl(url)))
  }

  /* ------------------------------------------------------------- routes */

  datatype ResponseBody =
    | ConsultationCreated(consultation: ConsultationRequest)
    | DemoCallCreated(demoCall: DemoCallRequest)
    | ConsultationList(consultations: seq<ConsultationRequest>)
    | DemoCallList(demoCalls: seq<DemoCallRequest>)
    | ValidationFailed(details: seq<string>)   // { error: "Validation failed", details }
    | InternalServerError                      // { error: "Internal server error" }

  datatype Reply = Reply(status: nat, body: ResponseBody)

  /** What a handler did besides answering, in order. */
  datatype Effect = StoreWrite(id: string) | WebhookStarted(attempt: WebhookAttempt)

  datatype RouteOutcome = RouteOutcome(reply: Reply, store: MemStorage, effects: seq<Effect>)

  /** `POST /api/consultation-requests`. */
  function PostConsultation(s: MemStorage, body: Body, id: string, createdAt: nat, env: WebhookEnv,
                            timestamp: string, storageFault: bool): (r: RouteOutcome)
    requires id !in Ids(s.consultationRequests)
    ensures r.reply.status in {201, 400, 500}
    ensures r.reply.status == 400 <==> ParseConsultation(body).Failure?
    ensures r.reply.status == 400 ==>
              && r.reply.body == ValidationFailed(MissingStrings(body, ConsultationFields))
              && (forall f :: f in r.reply.body.details <==> f in ConsultationFields && StringAt(body, f).None?)
    ensures r.reply.status != 201 ==> r.store == s && r.effects == []
    ensures r.reply.status == 201 <==> ParseConsultation(body).Success? && !storageFault
    ensures ParseConsultation(body).Success? && storageFault ==> r.reply == Reply(500, InternalServerError)
    ensures r.reply.status == 201 ==>
              var x := ParseConsultation(body).value;
              var created := CreateConsultationRequest(s, x, id, createdAt);
              && r.reply.body == ConsultationCreated(created.record)
              && r.store == created.store
              && r.effects == [StoreWrite(id),
                               WebhookStarted(SendToWebhook(ConsultationData(x), "consultation-request", env, timestamp))]
  {
    match ParseConsultation(body)
    case Failure(issues) => RouteOutcome(Reply(400, ValidationFailed(issues)), s, [])
    case Success(x) =>
      if storageFault then RouteOutcome(Reply(500, InternalServerError), s, [])
      else
        var created := CreateConsultationRequest(s, x, id, createdAt);
        var hook := SendToWebhook(ConsultationData(x), "consultation-request", env, timestamp);
        RouteOutcome(Reply(201, ConsultationCreated(created.record)), created.store,
                     [StoreWrite(id), WebhookStarted(hook)])
  }

  /** `GET /api/consultation-requests`. */
  function GetConsultations(s: MemStorage, storageFault: bool): (r: RouteOutcome)
    ensures r.store == s && r.effects == []
    ensures !storageFault ==> r.reply == Reply(200, ConsultationList(GetConsultationRequests(s)))
    ensures storageFault ==> r.reply == Reply(500, InternalServerError)
  {
    if storageFault then RouteOutcome(Reply(500, InternalServerError), s, [])
    else RouteOutcome(Reply(200, ConsultationList(GetConsultationRequests(s))), s, [])
  }

  /** `POST /api/demo-call-requests`. */
  function PostDemoCall(s: MemStorage, body: Body, id: string, createdAt: nat, env: WebhookEnv,
                        timestamp: string, storageFault: bool): (r: RouteOutcome)
    requires id !in Ids(s.demoCallRequests)
    ensures r.reply.status in {201, 400, 500}
    ensures r.reply.status == 400 <==> ParseDemoCall(body).Failure?
    ensures r.reply.status == 400 ==>
              && r.reply.body == ValidationFailed(MissingStrings(body, DemoCallFields))
              && (forall f :: f in r.reply.body.details <==> f in DemoCallFields && StringAt(body, f).None?)
    ensures r.reply.status != 201 ==> r.store == s && r.effects == []
    ensures r.reply.status == 201 <==> ParseDemoCall(body).Success? && !storageFault
    ensures ParseDemoCall(body).Success? && storageFault ==> r.reply == Reply(500, InternalServerError)
    ensures r.reply.status == 201 ==>
              var x := ParseDemoCall(body).value;
              var created := CreateDemoCallRequest(s, x, id, createdAt);
              && r.reply.body == DemoCallCreated(created.record)
              && r.store == created.store
              && r.effects == [StoreWrite(id),
                               WebhookStarted(SendToWebhook(DemoCallData(x), "demo-call-request", env, timestamp))]
  {
    match ParseDemoCall(body)
    case Failure(issues) => RouteOutcome(Reply(400, ValidationFailed(issues)), s, [])
    case Success(x) =>
      if storageFault then RouteOutcome(Reply(500, InternalServerError), s, [])
      else
        var created := CreateDemoCallRequest(s, x, id, createdAt);
        var hook := SendToWebhook(DemoCallData(x), "demo-call-request", env, timestamp);
        RouteOutcome(Reply(201, DemoCallCreated(created.record)), created.store,
                     [StoreWrite(id), WebhookStarted(hook)])
  }

  /** `GET /api/demo-call-requests`. */
  function GetDemoCalls(s: MemStorage, storageFault: bool): (r: RouteOutcome)
    ensures r.store == s && r.effects == []
    ensures !storageFault ==> r.reply == Reply(200, DemoCallList(GetDemoCallRequests(s)))
    ensures storageFault ==> r.reply == Reply(500, InternalServerError)
  {
    if storageFault then RouteOutcome(Reply(500, InternalServerError), s, [])
    else RouteOutcome(Reply(200, DemoCallList(GetDemoCallRequests(s))), s, [])
  }

  /* ------------------------------------------------------------ lemmas */

  /** Whether or how the webhook is configured never changes the answer or the store. */
  lemma WebhookConfigNeverChangesResponse(s: MemStorage, body: Body, id: string, createdAt: nat,
                                          e1: WebhookEnv, e2: WebhookEnv, timestamp: string, fault: bool)
    requires id !in Ids(s.consultationRequests) && id !in Ids(s.demoCallRequests)
    ensures PostConsultation(s, body, id, createdAt, e1, timestamp, fault).reply
         == PostConsultation(s, body, id, createdAt, e2, timestamp, fault).reply
    ensures PostConsultation(s, body, id, createdAt, e1, timestamp, fault).store
         == PostConsultation(s, body, id, createdAt, e2, timestamp, fault).store
    ensures PostDemoCall(s, body, id, createdAt, e1, timestamp, fault).reply
         == PostDemoCall(s, body, id, createdAt, e2, timestamp, fault).reply
    ensures PostDemoCall(s, body, id, createdAt, e1, timestamp, fault).store
         == PostDemoCall(s, body, id, createdAt, e2, timestamp, fault).store
  {
  }

  /** A successful POST followed by a GET lists the earlier records and then the new one. */
  lemma PostThenGet(s: MemStorage, x: InsertConsultationRequest, id: string, createdAt: nat,
                    env: WebhookEnv, timestamp: string)
    requires id !in Ids(s.consultationRequests)
    ensures var post := PostConsultation(s, ConsultationBody(x), id, createdAt, env, timestamp, false);
            && post.reply.status == 201
            && post.reply.body.consultation == StampConsultation(x, id, createdAt)
            && GetConsultations(post.store, false).reply.body.consultations
               == GetConsultationRequests(s) + [StampConsultation(x, id, createdAt)]
            && GetDemoCalls(post.store, false).reply == GetDemoCalls(s, false).reply
  {
    ConsultationRoundTrip(x);
  }

  /** The same valid payload posted twice yields two records with different ids. */
  lemma NotIdempotent(s: MemStorage, x: InsertDemoCallRequest, id1: string, id2: string, t1: nat, t2: nat,
                      env: WebhookEnv, timestamp: string)
    requires id1 !in Ids(s.demoCallRequests) && id2 !in Ids(s.demoCallRequests) && id1 != id2
    ensures var p1 := PostDemoCall(s, DemoCallBody(x), id1, t1, env, timestamp, false);
            id2 !in Ids(p1.store.demoCallRequests)
            && var p2 := PostDemoCall(p1.store, DemoCallBody(x), id2, t2, env, timestamp, false);
               && p1.reply.body.demoCall.id != p2.reply.body.demoCall.id
               && GetDemoCallRequests(p2.store)
                  == GetDemoCallRequests(s) + [p1.reply.body.demoCall, p2.reply.body.demoCall]
  {
    DemoCallRoundTrip(x);
    var p1 := PostDemoCall(s, DemoCallBody(x), id1, t1, env, timestamp, false);
    assert Ids(p1.store.demoCallRequests) == Ids(s.demoCallRequests) + [id1];
  }
}

=== FILE: schema.dfy ===
/**
 * The record shapes of the two persisted form kinds and the insert schemas
 * derived from their table definitions.
 *
 * Every column other than `id` and `createdAt` is a `notNull` text column, so
 * the derived insert schema asks for each of them to be present and a
 * string, and nothing more: no minimum length and no e-mail format. `id` and
 * `createdAt` are omitted from the insert shape and supplied by the store.
 * Keys a schema does not know are dropped, and every failing field is
 * reported, in declaration order.
 */
module Schema {
  import opened Wrappers

  /** A JSON value in a request body. Only strings matter to the schemas here;
      every other JSON value (number, boolean, null, object, array) is `JOther`. */
  datatype JsonValue = JString(s: string) | JOther

  /** A parsed JSON request body: an object from keys to values. */
  type Body = map<string, JsonValue>

  /** The string stored under `key`, if there is one. */
  function StringAt(b: Body, key: string): Option<string> {
    if key in b && b[key].JString? then Some(b[key].s) else None
  }

  /* ------------------------------------------------------------ records */

  datatype InsertConsultationRequest = InsertConsultationRequest(
    businessName: string,
    contactName: string,
    email: string,
    phone: string,
    businessType: string,
    automationNeeds: string,
    preferredContactMethod: string)

  /** A stored consultation request; `createdAt` is milliseconds since the epoch. */
  datatype ConsultationRequest = ConsultationRequest(
    id: string,
    businessName: string,
    contactName: string,
    email: string,
    phone: string,
    businessType: string,
    automationNeeds: string,
    preferredContactMethod: string,
    createdAt: nat)

  datatype InsertDemoCallRequest = InsertDemoCallRequest(
    name: string,
    businessName: string,
    email: string,
    phone: string)

  datatype DemoCallRequest = DemoCallRequest(
    id: string,
    name: string,
    businessName: string,
    email: string,
    phone: string,
    createdAt: nat)

  /** The insert-schema keys, in column order. */
  const ConsultationFields: seq<string> :=
    ["businessName", "contactName", "email", "phone", "businessType",
     "automationNeeds", "preferredContactMethod"]

  const DemoCallFields: seq<string> := ["name", "businessName", "email", "phone"]

  function ConsultationValues(x: InsertConsultationRequest): seq<string> {
    [x.businessName, x.contactName, x.email, x.phone, x.businessType,
     x.automationNeeds, x.preferredContactMethod]
  }

  function DemoCallValues(x: InsertDemoCallRequest): seq<string> {
    [x.name, x.businessName, x.email, x.phone]
  }

  /** `{ ...insert, id, createdAt }` for a consultation request. */
  function StampConsultation(x: InsertConsultationRequest, id: string, createdAt: nat): (r: ConsultationRequest)
    ensures r.id == id && r.createdAt == createdAt
    ensures UnstampConsultation(r) == x
  {
    ConsultationRequest(id, x.businessName, x.contactName, x.email, x.phone,
                        x.businessType, x.automationNeeds, x.preferredContactMethod, createdAt)
  }

  /** The insert fields of a stored consultation request. */
  function UnstampConsultation(r: ConsultationRequest): InsertConsultationRequest {
    InsertConsultationRequest(r.businessName, r.contactName, r.email, r.phone,
                              r.businessType, r.automationNeeds, r.preferredContactMethod)
  }

  /** `{ ...insert, id, createdAt }` for a demo-call request. */
  function StampDemoCall(x: InsertDemoCallRequest, id: string, createdAt: nat): (r: DemoCallRequest)
    ensures r.id == id && r.createdAt == createdAt
    ensures UnstampDemoCall(r) == x
  {
    DemoCallRequest(id, x.name, x.businessName, x.email, x.phone, createdAt)
  }

  function UnstampDemoCall(r: DemoCallRequest): InsertDemoCallRequest {
    InsertDemoCallRequest(r.name, r.businessName, r.email, r.phone)
  }

  /** A stored record is exactly its insert fields plus its id and timestamp. */
  lemma StampRoundTrip(c: ConsultationRequest, d: DemoCallRequest)
    ensures StampConsultation(UnstampConsultation(c), c.id, c.createdAt) == c
    ensures StampDemoCall(UnstampDemoCall(d), d.id, d.createdAt) == d
  {
  }

  /* ------------------------------------------------------------ parsing */

  /** The keys among `fields` that have no string value, in order: the
      paths of the issues a schema of required strings reports. */
  function MissingStrings(b: Body, fields: seq<string>): (issues: seq<string>)
    ensures |issues| <= |fields|
    ensures forall f :: f in issues <==> f in fields && StringAt(b, f).None?
  {
    if |fields| == 0 then []
    else (if StringAt(b, fields[0]).None? then [fields[0]] else [])
         + MissingStrings(b, fields[1..])
  }

  /** Parse an object of required strings: their values in order, or every failing key. */
  function ParseStrings(b: Body, fields: seq<string>): (r: Result<seq<string>, seq<string>>)
    ensures r.Success? <==> forall i :: 0 <= i < |fields| ==> StringAt(b, fields[i]).Some?
    ensures r.Success? ==> |r.value| == |fields|
    ensures r.Success? ==> forall i :: 0 <= i < |fields| ==> StringAt(b, fields[i]) == Some(r.value[i])
    ensures r.Failure? ==> r.error != [] && r.error == MissingStrings(b, fields)
  {
    if |fields| == 0 then Success([])
    else
      var head := StringAt(b, fields[0]);
      var rest := ParseStrings(b, fields[1..]);
      assert forall i :: 1 <= i < |fields| ==> fields[i] == fields[1..][i - 1];
      if head.None? then Failure(MissingStrings(b, fields))
      else if rest.Failure? then Failure(rest.error)
      else Success([head.value] + rest.value)
  }

  /** `insertConsultationRequestSchema.parse(body)`. */
  function ParseConsultation(b: Body): (r: Result<InsertConsultationRequest, seq<string>>)
    ensures r.Success? <==> forall f :: f in ConsultationFields ==> StringAt(b, f).Some?
    ensures r.Success? ==> forall i :: 0 <= i < |ConsultationFields| ==>
                             StringAt(b, ConsultationFields[i]) == Some(ConsultationValues(r.value)[i])
    ensures r.Failure? ==> r.error != [] && r.error == MissingStrings(b, ConsultationFields)
  {
    match ParseStrings(b, ConsultationFields)
    case Failure(e) => Failure(e)
    case Success(v) =>
      Success(InsertConsultationRequest(v[0], v[1], v[2], v[3], v[4], v[5], v[6]))
  }

  /** `insertDemoCallRequestSchema.parse(body)`. */
  function ParseDemoCall(b: Body): (r: Result<InsertDemoCallRequest, seq<string>>)
    ensures r.Success? <==> forall f :: f in DemoCallFields ==> StringAt(b, f).Some?
    ensures r.Success? ==> forall i :: 0 <= i < |DemoCallFields| ==>
                             StringAt(b, DemoCallFields[i]) == Some(DemoCallValues(r.value)[i])
    ensures r.Failure? ==> r.error != [] && r.error == MissingStrings(b, DemoCallFields)
  {
    match ParseStrings(b, DemoCallFields)
    case Failure(e) => Failure(e)
    case Success(v) => Success(InsertDemoCallRequest(v[0], v[1], v[2], v[3]))
  }

  /* ----------------------------------------------------- JSON encoding */

  /** The JSON object a client sends for a consultation request. */
  function ConsultationBody(x: InsertConsultationRequest): Body {
    map["businessName" := JString(x.businessName), "contactName" := JString(x.contactName),
        "email" := JString(x.email), "phone" := JString(x.phone),
        "businessType" := JString(x.businessType), "automationNeeds" := JString(x.automationNeeds),
        "preferredContactMethod" := JString(x.preferredContactMethod)]
  }

  function DemoCallBody(x: InsertDemoCallRequest): Body {
    map["name" := JString(x.name), "businessName" := JString(x.businessName),
        "email" := JString(x.email), "phone" := JString(x.phone)]
  }

  /** Every insert record survives being sent as JSON and parsed again, empty strings included. */
  lemma ConsultationRoundTrip(x: InsertConsultationRequest)
    ensures ParseConsultation(ConsultationBody(x)) == Success(x)
  {
    var b := ConsultationBody(x);
    assert forall f :: f in ConsultationFields ==> StringAt(b, f).Some?;
    var r := ParseConsultation(b);
    assert forall i :: 0 <= i < 7 ==> ConsultationValues(r.value)[i] == ConsultationValues(x)[i];
  }

  lemma DemoCallRoundTrip(x: InsertDemoCallRequest)
    ensures ParseDemoCall(DemoCallBody(x)) == Success(x)
  {
    var b := DemoCallBody(x);
    assert forall f :: f in DemoCallFields ==> StringAt(b, f).Some?;
    var r := ParseDemoCall(b);
    assert forall i :: 0 <= i < 4 ==> DemoCallValues(r.value)[i] == DemoCallValues(x)[i];
  }

  /** Parsing reads only the schema's own keys: anything else in the body,
      a client-supplied `id` or `createdAt` included, is stripped. */
  lemma {:induction false} ParseStringsIgnoresOtherKeys(b: Body, fields: seq<string>, key: string, v: JsonValue)
    requires key !in fields
    ensures ParseStrings(b[key := v], fields) == ParseStrings(b, fields)
    ensures MissingStrings(b[key := v], fields) == MissingStrings(b, fields)
    decreases |fields|
  {
    if |fields| > 0 {
      ParseStringsIgnoresOtherKeys(b, fields[1..], key, v);
    }
  }

  lemma ParseIgnoresIdentity(b: Body, v: JsonValue, w: JsonValue)
    ensures ParseConsultation(b["id" := v]["createdAt" := w]) == ParseConsultation(b)
    ensures ParseDemoCall(b["id" := v]["createdAt" := w]) == ParseDemoCall(b)
  {
    ParseStringsIgnoresOtherKeys(b, ConsultationFields, "id", v);
    ParseStringsIgnoresOtherKeys(b["id" := v], ConsultationFields, "createdAt", w);
    ParseStringsIgnoresOtherKeys(b, DemoCallFields, "id", v);
    ParseStringsIgnoresOtherKeys(b["id" := v], DemoCallFields, "createdAt", w);
  }
}

=== FILE: storage.dfy ===
/**
 * The in-memory store: two independent, append-only collections keyed by a
 * fresh id, one for consultation requests and one for demo-call requests.
 *
 * A JavaScript `Map` remembers insertion order, so a collection is modelled
 * as the sequence of its `(id, record)` slots; `Array.from(map.values())` is
 * the sequence of their records. The id and the creation time, which the
 * store draws from `randomUUID` and `new Date()`, are parameters here, and a
 * create asks for an id the collection has not seen.
 */
module Storage {
  import opened Wrappers
  import opened JsString
  import opened Schema

  datatype Slot<T> = Slot(id: string, value: T)

  /** An insertion-ordered map from id to record. */
  datatype Collection<T> = Collection(slots: seq<Slot<T>>)

  function Ids<T>(c: Collection<T>): seq<string> {
    seq(|c.slots|, i requires 0 <= i < |c.slots| => c.slots[i].id)
  }

  predicate DistinctIds<T>(c: Collection<T>) {
    forall i, j :: 0 <= i < j < |c.slots| ==> c.slots[i].id != c.slots[j].id
  }

  function Init<T>(c: Collection<T>): Collection<T>
    requires |c.slots| > 0
  {
    Collection(c.slots[..|c.slots| - 1])
  }

  /** `map.get(id)`. */
  function Get<T>(c: Collection<T>, id: string): (r: Option<T>)
    ensures r.Some? <==> id in Ids(c)
    ensures r.Some? ==> exists i :: 0 <= i < |c.slots| && c.slots[i] == Slot(id, r.value)
    decreases |c.slots|
  {
    if |c.slots| == 0 then None
    else
      var last := c.slots[|c.slots| - 1];
      assert Ids(c) == Ids(Init(c)) + [last.id];
      if last.id == id then Some(last.value) else Get(Init(c), id)
  }

  /** `Array.from(map.values())`: the records in insertion order. */
  function Values<T>(c: Collection<T>): (vs: seq<T>)
    ensures |vs| == |c.slots|
    ensures forall i :: 0 <= i < |c.slots| ==> vs[i] == c.slots[i].value
    decreases |c.slots|
  {
    if |c.slots| == 0 then []
    else Values(Init(c)) + [c.slots[|c.slots| - 1].value]
  }

  /** The collection viewed as a plain finite map. */
  function AsMap<T>(c: Collection<T>): map<string, T>
    decreases |c.slots|
  {
    if |c.slots| == 0 then map[]
    else
      var last := c.slots[|c.slots| - 1];
      AsMap(Init(c))[last.id := last.value]
  }

  /** `map.set(id, v)` for an id the map does not hold yet. */
  function Insert<T>(c: Collection<T>, id: string, v: T): (r: Collection<T>)
    requires id !in Ids(c)
    ensures Get(r, id) == Some(v)
    ensures forall k :: k != id ==> Get(r, k) == Get(c, k)
    ensures |r.slots| == |c.slots| + 1
    ensures Values(r) == Values(c) + [v]
    ensures DistinctIds(c) ==> DistinctIds(r)
  {
    var r := Collection(c.slots + [Slot(id, v)]);
    assert Init(r) == c;
    assert forall i :: 0 <= i < |c.slots| ==> Ids(c)[i] == c.slots[i].id;
    r
  }

  /** The map view of a collection has one key per slot and the latest record under each. */
  lemma {:induction false} AsMapMatchesGet<T>(c: Collection<T>)
    requires DistinctIds(c)
    ensures |AsMap(c)| == |c.slots|
    ensures forall k :: (k in AsMap(c) <==> k in Ids(c))
    ensures forall k :: k in AsMap(c) ==> Get(c, k) == Some(AsMap(c)[k])
    decreases |c.slots|
  {
    if |c.slots| > 0 {
      var p := Init(c);
      var last := c.slots[|c.slots| - 1];
      AsMapMatchesGet(p);
      assert Ids(c) == Ids(p) + [last.id];
      assert last.id !in Ids(p) by {
        forall i | 0 <= i < |p.slots| ensures p.slots[i].id != last.id {
          assert c.slots[i] == p.slots[i];
        }
      }
      assert last.id !in AsMap(p);
    }
  }

  /** After `Insert`, the map view is the old one with `id ↦ v` added and one key larger. */
  lemma InsertAsMap<T>(c: Collection<T>, id: string, v: T)
    requires DistinctIds(c)
    requires id !in Ids(c)
    ensures AsMap(Insert(c, id, v)) == AsMap(c)[id := v]
    ensures |AsMap(Insert(c, id, v))| == |AsMap(c)| + 1
  {
    var r := Insert(c, id, v);
    assert Init(r) == c;
    AsMapMatchesGet(c);
    AsMapMatchesGet(r);
  }

  /* --------------------------------------------------------- MemStorage */

  datatype MemStorage = MemStorage(
    consultationRequests: Collection<ConsultationRequest>,
    demoCallRequests: Collection<DemoCallRequest>)

  /** The result of a create: the stored record and the store after it. */
  datatype Created<R> = Created(record: R, store: MemStorage)

  /** `new MemStorage()`: both collections empty. */
  const Empty: MemStorage := MemStorage(Collection([]), Collection([]))

  /** Ids are unique in each collection and every record carries its own key. */
  predicate Valid(s: MemStorage) {
    && DistinctIds(s.consultationRequests)
    && DistinctIds(s.demoCallRequests)
    && (forall i :: 0 <= i < |s.consultationRequests.slots| ==>
          s.consultationRequests.slots[i].value.id == s.consultationRequests.slots[i].id)
    && (forall i :: 0 <= i < |s.demoCallRequests.slots| ==>
          s.demoCallRequests.slots[i].value.id == s.demoCallRequests.slots[i].id)
  }

  lemma EmptyValid()
    ensures Valid(Empty)
    ensures GetConsultationRequests(Empty) == [] && GetDemoCallRequests(Empty) == []
  {
  }

  function GetConsultationRequests(s: MemStorage): seq<ConsultationRequest> {
    Values(s.consultationRequests)
  }

  function GetDemoCallRequests(s: MemStorage): seq<DemoCallRequest> {
    Values(s.demoCallRequests)
  }

  /** `createConsultationRequest(insert)` with the generated id and time given. */
  function CreateConsultationRequest(s: MemStorage, x: InsertConsultationRequest, id: string, createdAt: nat)
    : (r: Created<ConsultationRequest>)
    requires id !in Ids(s.consultationRequests)
    ensures UnstampConsultation(r.record) == x && r.record.id == id && r.record.createdAt == createdAt
    ensures Get(r.store.consultationRequests, id) == Some(r.record)
    ensures forall k :: k != id ==> Get(r.store.consultationRequests, k) == Get(s.consultationRequests, k)
    ensures |r.store.consultationRequests.slots| == |s.consultationRequests.slots| + 1
    ensures GetConsultationRequests(r.store) == GetConsultationRequests(s) + [r.record]
    ensures r.store.demoCallRequests == s.demoCallRequests
    ensures Valid(s) ==> Valid(r.store)
  {
    var record := StampConsultation(x, id, createdAt);
    Created(record, s.(consultationRequests := Insert(s.consultationRequests, id, record)))
  }

  /** `createDemoCallRequest(insert)` with the generated id and time given. */
  function CreateDemoCallRequest(s: MemStorage, x: InsertDemoCallRequest, id: string, createdAt: nat)
    : (r: Created<DemoCallRequest>)
    requires id !in Ids(s.demoCallRequests)
    ensures UnstampDemoCall(r.record) == x && r.record.id == id && r.record.createdAt == createdAt
    ensures Get(r.store.demoCallRequests, id) == Some(r.record)
    ensures forall k :: k != id ==> Get(r.store.demoCallRequests, k) == Get(s.demoCallRequests, k)
    ensures |r.store.demoCallRequests.slots| == |s.demoCallRequests.slots| + 1
    ensures GetDemoCallRequests(r.store) == GetDemoCallRequests(s) + [r.record]
    ensures r.store.consultationRequests == s.consultationRequests
    ensures Valid(s) ==> Valid(r.store)
  {
    var record := StampDemoCall(x, id, createdAt);
    Created(record, s.(demoCallRequests := Insert(s.demoCallRequests, id, record)))
  }

  /* ------------------------------------------------------ whole histories */

  /** Everything a caller can do to the store. */
  datatype Op =
    | CreateConsultation(consultation: InsertConsultationRequest, id: string, at: nat)
    | CreateDemoCall(demoCall: InsertDemoCallRequest, id: string, at: nat)
    | ListConsultations
    | ListDemoCalls

  /** A create draws an id its collection has not seen. */
  predicate Fresh(s: MemStorage, op: Op) {
    match op
    case CreateConsultation(_, id, _) => id !in Ids(s.consultationRequests)
    case CreateDemoCall(_, id, _) => id !in Ids(s.demoCallRequests)
    case _ => true
  }

  function Apply(s: MemStorage, op: Op): MemStorage
    requires Fresh(s, op)
  {
    match op
    case CreateConsultation(x, id, at) => CreateConsultationRequest(s, x, id, at).store
    case CreateDemoCall(x, id, at) => CreateDemoCallRequest(s, x, id, at).store
    case _ => s
  }

  /** Every create in the history draws a fresh id at the moment it runs. */
  predicate FreshRun(s: MemStorage, ops: seq<Op>)
    decreases |ops|
  {
    |ops| == 0 || (Fresh(s, ops[0]) && FreshRun(Apply(s, ops[0]), ops[1..]))
  }

  function Run(s: MemStorage, ops: seq<Op>): MemStorage
    requires FreshRun(s, ops)
    decreases |ops|
  {
    if |ops| == 0 then s else Run(Apply(s, ops[0]), ops[1..])
  }

  /**
   * Nothing deletes or rewrites a record: over any history, each list the
   * store returns extends the one it returned before, and the store's
   * invariant holds throughout.
   */
  lemma {:induction false} HistoryOnlyGrows(s: MemStorage, ops: seq<Op>)
    requires FreshRun(s, ops)
    ensures StartsWith(GetConsultationRequests(Run(s, ops)), GetConsultationRequests(s))
    ensures StartsWith(GetDemoCallRequests(Run(s, ops)), GetDemoCallRequests(s))
    ensures Valid(s) ==> Valid(Run(s, ops))
    decreases |ops|
  {
    if |ops| > 0 {
      var s1 := Apply(s, ops[0]);
      HistoryOnlyGrows(s1, ops[1..]);
      var a, b, c := GetConsultationRequests(s), GetConsultationRequests(s1), GetConsultationRequests(Run(s, ops));
      assert StartsWith(b, a);
      assert c[..|a|] == c[..|b|][..|a|];
      var d, e, f := GetDemoCallRequests(s), GetDemoCallRequests(s1), GetDemoCallRequests(Run(s, ops));
      assert StartsWith(e, d);
      assert f[..|d|] == f[..|e|][..|d|];
    }
  }

  /** Consultation creates leave the demo-call list alone, and the reverse. */
  lemma {:induction false} CollectionsIndependent(s: MemStorage, ops: seq<Op>)
    requires FreshRun(s, ops)
    ensures (forall i :: 0 <= i < |ops| ==> !ops[i].CreateDemoCall?)
            ==> GetDemoCallRequests(Run(s, ops)) == GetDemoCallRequests(s)
    ensures (forall i :: 0 <= i < |ops| ==> !ops[i].CreateConsultation?)
            ==> GetConsultationRequests(Run(s, ops)) == GetConsultationRequests(s)
    decreases |ops|
  {
    if |ops| > 0 {
      CollectionsIndependent(Apply(s, ops[0]), ops[1..]);
    }
  }
}

=== FILE: wrappers.dfy ===
/** Small failure-carrying datatypes shared by every module of the model. */
module Wrappers {

  /** A possibly absent value: JavaScript's `undefined`/`null` is `None`. */
  datatype Option<+T> = None | Some(value: T)

  /** Either a value or an error description. */
  datatype Result<+R, +E> = Success(value: R) | Failure(error: E)
}
